=== FILE: README.md ===
# mcts in Dafny

A model of the Monte Carlo tree search of JeromeBau/mcts and of the game rules
and sentence helpers around it, with the properties the code promises proved
about the model.

- `tree.dfy` (module `Tree`): the auto-vivifying `SearchTree`. In Python every
  node is a dict whose missing keys create a fresh child on first lookup. Here
  the whole tree is one object, and its `nodes` map sends each move path to
  the node's statistics (`passes`, `average_path_value`, `full_path`). The
  empty path is the top-level tree itself. A lookup (`Get`) inserts a fresh
  node in place, and walking a path (`Walk`) looks up every prefix in turn.
- `nlg.dfy` (module `Nlg`): the sentence game `NLGame`. It covers the
  constructor checks, vocabulary membership as the move rule, the end of the
  game at four words, `make_a_move` appending in place, `generate_next_moves`,
  and `deepcopy` as `Copy`.
- `monte_carlo.dfy` (module `MonteCarlo`): the class `MonteCarloTreeSearch`.
  - Its methods `Select`, `Expand`, `Simulate`, `Backpropagate`,
    `BackpropagateChangeLeaveValue` and `MakeIteration` follow the Python
    loops and update the engine's fields and the tree in place.
  - `MakeIteration` runs select and expand itself. It hands the last two
    source lines (simulate, then backpropagate a truthy evaluation) to
    `SimulateAndBackpropagate`, a helper that the source does not have, so that
    each method's proof stays small.
  - The random picks are nondeterministic choices among the offered tree keys
    or game moves. Every contract holds whatever is picked.
  - Backpropagation is specified by functions on the node map (`Bump`,
    `LeafUpdate`, `Backpropagated`), and lemmas prove what it does to each
    node.
- `tourist.dfy` (module `Tourist`): the move validator of the travelling
  tourist game.
- `sentence_classifier.dfy` (module `SentenceClassifier`): the n-gram features
  of a sentence and its overlap scores against known bigram and trigram sets,
  which are passed in as parameters.
- `brown_corpus.dfy` (module `BrownCorpusExtractor`): the corpus reader class,
  whose sentence, bigram and trigram lists grow in place.
- `training_data.dfy` (module `TrainingData`): `clean_sentence` and the
  always-raising `make_features` of the training-data builder.
- `text.dfy` (module `Text`): the Python string operations these rely on:
  `str.split()` with no separator, `" ".join`, `in` on strings and
  `startswith`.
- `wrappers.dfy` (module `Wrappers`): `Option`, `Result`, and `Outcome` for
  operations that either pass or raise.

Python exceptions are error values:
- `GameInitiationError` and `MoveNotAllowedError` in the game;
- the division by zero of an empty n-gram list;
- the two errors of line 96 of `src/monte_carlo.py`;
- `NotImplementedError`.

## Behaviour kept as written

- `_backpropagate_change_leave_value` reads the undefined name
  `simulation_evaluation` on a leaf visited before. It first evaluates
  `passes * average_path_value`, so a leaf without an average raises a type
  error, and any other leaf raises the name error. Only a first visit writes
  the average.
- Inside its loop, `select` follows the children's averages rather than their
  confidence bounds. It appends the chosen move to the path before playing it,
  so a move the game refuses is already on the path when the error escapes.
- `generate_next_moves` returns the whole vocabulary in order at every
  sentence length, because the filter only checks vocabulary membership. Only
  `_check_game_over` ends the loops of `select` and `simulate`. `expand` never
  checks it: when `select` stops at a finished four-word sentence, `expand`
  still plays a fifth word. `Expand` does the same.
- `special_chars_with_whitespace` lists the closing brace twice and leaves out
  the closing bracket. The comma is in both sets and deletion runs first, so a
  comma is deleted.

## Model

| member | source | states |
|---|---|---|
| Tree.SearchTree.constructor | src/tree.py:7-12 | a new tree is one node with no passes, no average and an empty path |
| Tree.SearchTree.Get | src/tree.py:2-4 | looking up a present key returns that node and leaves the tree alone; a missing key is bound to a fresh node, which is returned, and no other key changes |
| Tree.VivifyFresh | src/tree.py:2-4 | a lookup of a missing key keeps every existing node, and the node it creates is fresh and has no children |
| Tree.VivifyClosed | src/tree.py:1-4 | looking up a child of an existing node keeps every prefix of every key a key |
| Tree.Materialize | src/tree.py:1-4 | walking a path creates exactly its missing prefix nodes, fresh, keeps every existing node unchanged, and ends at an existing node |
| Tree.MaterializeClosed | src/tree.py:1-4 | walking a path keeps the tree closed under prefixes |
| Tree.MaterializeExisting | src/tree.py:2-4 | walking a path whose nodes all exist changes nothing |
| Tree.SearchTree.Walk | src/monte_carlo.py:67-69 | the loop of lookups along a path leaves the tree equal to walking the path and returns the node at its end |
| Tree.Children | src/monte_carlo.py:37-39 | the keys of a node are exactly the moves whose extended path is in the tree |
| Nlg.Occurrences | src/nlg.py:18 | `count` is zero exactly when the word is absent |
| Nlg.OccurrencesAboveOne | src/nlg.py:18 | a count above one means the word sits at two different positions, and back |
| Nlg.Duplicates | src/nlg.py:18 | the duplicate set holds exactly the words that occur twice |
| Nlg.CheckGameCorrectlyInitiated | src/nlg.py:17-26 | duplicates are reported, with exactly the repeated words, iff the vocabulary repeats a word; otherwise the empty starting word, then the empty state, then a wrong first word fail in that order; it passes iff all four checks hold |
| Nlg.NLGame.constructor | src/nlg.py:8-15 | a game that passed the checks holds the given vocabulary, state and starting word and a sentence length of 4 |
| Nlg.NLGame.New | src/nlg.py:8-15 | construction fails with the first failing check's error, and only then; otherwise it yields a new valid game with the given fields |
| Nlg.NLGame.CheckMovePossible | src/nlg.py:28-32 | a move is possible iff it is a vocabulary word |
| Nlg.NLGame.CheckGameOver | src/nlg.py:34-38 | the game is over iff the sentence holds at least `sentence_length` words |
| Nlg.NLGame.KeepPossible | src/nlg.py:47-48 | the filter keeps exactly the possible moves, and keeps a list of vocabulary words whole and in order |
| Nlg.NLGame.GenerateNextMoves | src/nlg.py:47-48 | the next moves are the vocabulary, in its order |
| Nlg.NLGame.MakeAMove | src/nlg.py:40-45 | an allowed move is appended to the state; any other move raises `MoveNotAllowedError` naming it and leaves the state unchanged |
| Nlg.NLGame.EvaluateGame | src/nlg.py:50-55 | the evaluation is 1 when the classifier judges the sentence human, else 0 |
| Nlg.NLGame.Copy | src/monte_carlo.py:35 | the copy is a new, independent game with equal fields |
| Nlg.TestVocabularyDistinct | test/test_nlg.py:16 | the test vocabulary repeats no word |
| Nlg.InitiationExamples | test/test_nlg.py:13-54 | the first test game is accepted; the wrong first word, the empty state and the empty starting word each raise their own error |
| Nlg.DuplicateExample | src/nlg.py:18-20 | a vocabulary with "my" twice is refused with exactly {"my"} as its duplicates |
| Nlg.CheckMovesExample | test/test_nlg.py:57-77 | "is" and "john" are allowed moves in the test game; "slkdfj" and "" are not |
| MonteCarlo.MonteCarloTreeSearch.constructor | src/monte_carlo.py:15-21 | the engine keeps the game and the tree, plays on a fresh copy of the game, starts the path at the root word and has run no simulation |
| MonteCarlo.MonteCarloTreeSearch.Select | src/monte_carlo.py:30-54 | select restarts from a fresh copy at `[root]` and creates the root node; every appended move is an existing child of the node before it; the game has played exactly the moves after the root; it stops at a node without children or a finished game; a refused move escapes as `MoveNotAllowedError` with that move last on the path |
| MonteCarlo.DescentBelowRoot | src/monte_carlo.py:37-43 | a selected path goes past the root only through an existing child of the root, so while the root has no child select returns `[root]` |
| MonteCarlo.MonteCarloTreeSearch.Expand | src/monte_carlo.py:56-70 | with no moves on offer it returns False and changes nothing; otherwise one offered move is appended to both the path and the game, and the tree gains exactly the missing nodes of the new path, fresh, with existing nodes untouched; a game that has played exactly the path's moves after the root still has |
| MonteCarlo.MonteCarloTreeSearch.Simulate | src/monte_carlo.py:72-87 | the current game and path are untouched; it returns False without counting exactly when the running game offers no move; otherwise it counts one simulation and returns 1 or 0, as the judge rules on a legal playout of the current sentence |
| MonteCarlo.BumpShape | src/monte_carlo.py:98-102 | the counting loop creates exactly the missing nodes on the path and adds one pass to each node on it, and no other node changes |
| MonteCarlo.BumpThenLookUp | src/monte_carlo.py:89-92 | after the counting loop every node on the path exists, so the leaf lookup adds nothing |
| MonteCarlo.MonteCarloTreeSearch.BackpropagateChangeLeaveValue | src/monte_carlo.py:89-96 | the leaf is looked up; on its first pass its average becomes the value; otherwise it raises the error of line 96 and writes nothing |
| MonteCarlo.MonteCarloTreeSearch.Backpropagate | src/monte_carlo.py:98-103 | the tree and outcome are those of the counting loop followed by the leaf update, on the current path |
| MonteCarlo.BackpropagatePasses | src/monte_carlo.py:98-103 | backpropagation adds exactly one pass to every prefix of the path, creating the missing ones, and changes no other node's passes |
| MonteCarlo.BackpropagateAverages | src/monte_carlo.py:89-96 | only the leaf's average can change; it becomes the value exactly on the leaf's first pass; a later pass fails and leaves it; the type error arises exactly when a visited leaf has no average |
| MonteCarlo.BackpropagateOverExtended | src/monte_carlo.py:89-103 | backpropagating over a tree that only gained fresh nodes, measured against the older tree: every node on the path gains one pass, all other passes stay (zero for new nodes), only the leaf's average can change, and the leaf update passes exactly on the leaf's first pass, failing with the type error exactly when the leaf has passes but no average |
| MonteCarlo.BackpropagatedClosed | src/monte_carlo.py:98-103 | backpropagation keeps every prefix of every key a key |
| MonteCarlo.MonteCarloTreeSearch.SimulateAndBackpropagate | src/monte_carlo.py:108-110 | the tail of an iteration leaves the game and path alone and counts a completed simulation once; it keeps the tree unchanged and passes on a falsy evaluation; on a truthy one it backpropagates it, with the same per-node outcome that MakeIteration states, measured against the tree before select |
| MonteCarlo.MonteCarloTreeSearch.MakeIteration | src/monte_carlo.py:105-110 | no node is ever removed and a prefix-closed tree stays prefix-closed; when select raises, the iteration fails with `MoveNotAllowedError` naming the last move of the path, a word outside the vocabulary, the tree only gains the root node, the path descends through existing nodes and no simulation is counted; otherwise the game has played exactly the path's moves after the root, and the evaluation is False exactly when that game is not over and offers no move, or else 1 or 0 as the judge rules on a legal playout of it, counted once; with a falsy evaluation, or when select raises, existing nodes keep their passes and averages and only fresh nodes are added; with a truthy one, against the tree before the iteration, every node on the final path gains exactly one pass, every other node keeps its passes (zero for new ones), every node but the leaf keeps its average, and the iteration passes and stores the value exactly when the leaf had no pass before, otherwise it fails with the leaf's error, the type error exactly when the leaf has no average, and the leaf keeps its average |
| MonteCarlo.FirstIterationExample | src/monte_carlo.py:105-110 | one iteration over a fresh tree, on the test game with a classifier that accepts every sentence, passes and gives the root word exactly one pass |
| Tourist.NewTour | src/traveling_tourist.py:5-9 | a new tour starts from Berlin over the four listed cities, with nothing visited |
| Tourist.CheckMovePossible | src/traveling_tourist.py:11-34 | the home town is allowed iff it is the sole listed move; any other city iff it is listed and not yet visited |
| Tourist.AllowedMoveIsListedAndNew | src/traveling_tourist.py:21-34 | an allowed move is always listed, and never revisits a city other than home |
| Tourist.HomeRuleBeforeVisitedRule | src/traveling_tourist.py:21-29 | the home town, once the sole listed move, is allowed even when already visited |
| Tourist.CheckMovesExample | test/test_ttp.py:10-20 | after Berlin and Copenhagen, Copenhagen and Berlin are refused and Paris is allowed |
| SentenceClassifier.Zip2 | src/sentence_classifier/sentence_classifier.py:105 | `zip` of two lists pairs their elements up to the shorter length |
| SentenceClassifier.Zip3 | src/sentence_classifier/sentence_classifier.py:106 | `zip` of three lists forms triples up to the shortest length |
| SentenceClassifier.Tokens | src/sentence_classifier/sentence_classifier.py:104 | the tokens are the words framed by "@>" and "<@" |
| SentenceClassifier.Bigrams | src/sentence_classifier/sentence_classifier.py:105 | bigram i is (tokens[i], tokens[i+1]), one fewer than the tokens |
| SentenceClassifier.Trigrams | src/sentence_classifier/sentence_classifier.py:106 | trigram i is (tokens[i], tokens[i+1], tokens[i+2]), two fewer than the tokens |
| SentenceClassifier.SentenceToFeatures | src/sentence_classifier/sentence_classifier.py:103-107 | there is one more bigram than words and one trigram per word; the first bigram starts at "@>" and the last ends at "<@"; word i ends bigram i and starts bigram i+1; trigram i spans bigrams i and i+1 |
| SentenceClassifier.CountKnown | src/sentence_classifier/sentence_classifier.py:82-83 | the count of known n-grams is at most their number, equals it iff all are known, and is 0 iff none is |
| SentenceClassifier.Share | src/sentence_classifier/sentence_classifier.py:82-83 | a count out of a positive total, as a share, times the total gives the count back; it lies in [0, 1] and is 1 or 0 exactly when all or none count |
| SentenceClassifier.OverlapScore | src/sentence_classifier/sentence_classifier.py:82-83 | an empty list divides by zero; otherwise the score is the known count over the length, in [0, 1], 1 iff every n-gram is known, 0 iff none is |
| SentenceClassifier.ComputeScoreOverlapWithKnown | src/sentence_classifier/sentence_classifier.py:81-84 | it fails iff either list is empty; otherwise the two scores are the bigram and trigram overlap scores |
| SentenceClassifier.ComputeFeature | src/sentence_classifier/sentence_classifier.py:71-79 | it fails exactly on the empty sentence; otherwise both scores lie in [0, 1], and the trigram score is 1 iff every trigram of the sentence is known |
| SentenceClassifier.ScoresOfOneWord | src/sentence_classifier/sentence_classifier.py:77-84 | a one-word sentence scores (1, 1) against exactly its own n-grams and (0, 0) against none |
| Text.Split | src/sentence_classifier/build_training_data.py:35 | `str.split()` yields only non-empty words free of whitespace |
| Text.WordLengthUnique | src/sentence_classifier/build_training_data.py:35 | the word at the front of a string ends exactly at its first whitespace character or at the end |
| Text.SplitBlank | src/sentence_classifier/build_training_data.py:35 | a string of whitespace only splits into no words |
| Text.SplitWord | src/sentence_classifier/build_training_data.py:35 | a single word splits into itself |
| Text.SplitAppend | src/sentence_classifier/build_training_data.py:35 | splitting a concatenation with whitespace at the seam, or an empty side, gives the two splits one after the other; with SplitBlank and SplitWord this fixes the result on every string |
| Text.Join | src/sentence_classifier/build_training_data.py:35 | joining no words gives "" and one word gives that word |
| Text.SplitJoin | src/sentence_classifier/build_training_data.py:35 | splitting the space-join of words gives the words back |
| Text.Contains | src/sentence_classifier/brown_corpus_extractor.py:43 | `pattern in s` holds iff the pattern occurs at some position of `s` |
| BrownCorpusExtractor.BrownCorpus.constructor | src/sentence_classifier/brown_corpus_extractor.py:8-12 | a new reader keeps the directory and starts with three empty lists |
| BrownCorpusExtractor.BrownCorpus.MakeFeatures | src/sentence_classifier/brown_corpus_extractor.py:59-62 | the bigrams grow by one more than the words and the trigrams by the number of words; the old entries stay as a prefix; the new ones are exactly the sentence's features; the sentences are untouched |
| BrownCorpusExtractor.BrownCorpus.ExtractSentencesFromSegment | src/sentence_classifier/brown_corpus_extractor.py:42-46 | a segment containing "mw pos" yields None and records nothing; any other yields its tagged words and records their space-join as a sentence |
| BrownCorpusExtractor.BrownCorpus.ClearCache | src/sentence_classifier/brown_corpus_extractor.py:31-35 | afterwards all three lists are empty |
| BrownCorpusExtractor.MarkerSegment | src/sentence_classifier/brown_corpus_extractor.py:43 | a segment holding a multi-word tag is recognised by the guard |
| TrainingData.DropUrls | src/sentence_classifier/build_training_data.py:35 | no kept word starts with "http" or "www."; every word that does not is kept; nothing else is added |
| TrainingData.DropUrlsAppend | src/sentence_classifier/build_training_data.py:35 | the filter of a concatenation is the concatenation of the filters, so order and repeats are kept |
| TrainingData.DropUrlsOne | src/sentence_classifier/build_training_data.py:35 | a single word is dropped exactly when it starts with "http" or "www." and kept unchanged otherwise |
| TrainingData.Substitute | src/sentence_classifier/build_training_data.py:36-39 | after replacing a set of characters, each remaining character is outside the set or from the replacement; a one-character replacement keeps the length and deletion never lengthens |
| TrainingData.SubstituteOne | src/sentence_classifier/build_training_data.py:36-39 | a listed character becomes exactly the replacement and any other character stays; with SubstituteAppend this fixes the result character by character |
| TrainingData.SubstituteAppend | src/sentence_classifier/build_training_data.py:36-39 | replacing in a concatenation replaces in each part |
| TrainingData.SubstituteOneMore | src/sentence_classifier/build_training_data.py:36-39 | replacing one more character after a set of them is replacing the larger set, so the loop's order does not matter |
| TrainingData.ReplaceEach | src/sentence_classifier/build_training_data.py:36-39 | one `str.replace` per character of the set, in any order, replaces every character of the set |
| TrainingData.Collapse | src/sentence_classifier/build_training_data.py:40 | the result never holds two spaces in a row, is no longer, keeps the first character and all non-space characters, and is the text itself when it had no double space |
| TrainingData.CollapseDouble | src/sentence_classifier/build_training_data.py:40 | two spaces in a row collapse exactly like one, so each run of spaces becomes a single space and never vanishes |
| TrainingData.LowerChar | src/sentence_classifier/build_training_data.py:41 | a capital ASCII letter becomes its small letter and every other character stays |
| TrainingData.Lower | src/sentence_classifier/build_training_data.py:41 | lower-casing keeps the length and the spaces, leaves no capital letter, and lower-cases each character in place |
| TrainingData.CleanSentence | src/sentence_classifier/build_training_data.py:34-41 | the cleaned sentence holds no character of either special set, never two spaces in a row and no capital letter |
| TrainingData.CleanedProperties | src/sentence_classifier/build_training_data.py:36-41 | the character clean-up leaves no character of either special set (defined at lines 5-6), no double space and no capital letter |
| TrainingData.CommaDeleted | src/sentence_classifier/build_training_data.py:36-39 | a comma is deleted, not spaced, because deletion runs first |
| TrainingData.UrlWordsDropped | src/sentence_classifier/build_training_data.py:35 | the text handed to the character clean-up splits into exactly the words that are not links, in order |
| TrainingData.MakeFeatures | src/sentence_classifier/build_training_data.py:43-47 | `make_features` raises `NotImplementedError` whatever the sentence |

## Left out

- The upper confidence bound (`compute_upper_confidence_bound`, src/monte_carlo.py:23-24) and its use on the root's children (lines 38-41) are left out, because they are floating-point `log`, `sqrt` and division. The root's children are picked arbitrarily instead. The model therefore misses these failures of the source:
  - On a fresh tree the root has no child, so no bound is computed and nothing fails.
  - A root child with no pass makes line 24 divide by zero (`ZeroDivisionError`), or take `log(0)` if no simulation has completed yet. Such a child appears after an iteration whose evaluation is falsy: `expand` creates it and nothing counts a pass for it. From then on every `select` raises.
  - A root child with passes but no average makes line 24 add a float to None (`TypeError`, reached from line 38).
- SentenceClassifier.OverlapScore: the scores are exact rationals (`real`). src/sentence_classifier/sentence_classifier.py:82-83 computes them as floats, and float rounding is not modelled.
- The probability normalisation of src/monte_carlo.py:38-41 and 49-51 is left out. It uses float division and sums averages that may be None. The weighted pick of src/monte_carlo.py:27-28 is left out too.
- Every random pick, weighted or uniform, is a nondeterministic choice among the offered keys or moves. The model does not capture the distribution.
- `game.py` is not part of this model. The engine uses `NLGame` directly, as the one game with the method set the engine calls, so the model does not describe a general game interface.
- The sentence classifier behind `evaluate_game` is an uninterpreted predicate `judge` on the sentence, supplied at construction. The classifier's construction (src/nlg.py:14) is not modelled.
- The classifier machinery of src/sentence_classifier/sentence_classifier.py is left out: file loading, pickle, the linear SVM, pandas, shuffling and `sentence_is_human`. The known n-gram sets are parameters.
- File and corpus I/O are left out: `save_all`, `extract_segments_from_file`, `build_sentences_and_features` and `_read_sentences`.
- The regular expressions are left out. The tag regex of `extract_sentences_from_segment` is replaced by its result, which is passed in.
- The `__main__` blocks are left out.
- `TravelingTourist.generate_next_move` is left out because its body is unfinished.
- MonteCarlo.MonteCarloTreeSearch.Select: the children are followed by an arbitrary pick, without the average-based weights of line 49. A child whose average is None, which makes the source's sum fail, is therefore not singled out.
- The search tree's class invariant `Valid` only requires the top-level node. That every prefix of a key is a key is proved separately rather than carried by every method. MaterializeClosed, VivifyClosed and BackpropagatedClosed prove it for each tree operation, and MakeIteration's contract states it for a whole iteration.
- A node's average is kept as an integer. Simulations evaluate to 0 or 1, and the one write that succeeds stores such a value.
- TrainingData.Lower: only ASCII letters are lower-cased. Python's Unicode case mapping is left out.
- The tests in test/test_monte_carlo.py are not used. They build a `TravelingTourist` with arguments its constructor does not take, and they expect a path the code does not produce.

=== FILE: brown_corpus.dfy ===
/**
 * The accumulating corpus reader of
 * src/sentence_classifier/brown_corpus_extractor.py (class `BrownCoprus` in
 * the source): it collects sentences and their n-gram features in lists that
 * grow in place and are emptied after each file.
 */
module BrownCorpusExtractor {
  import opened Wrappers
  import opened Text
  import opened SentenceClassifier

  /** Segments holding a multi-word unit are skipped. */
  const MultiWordMarker: string := "mw pos"

  class BrownCorpus {
    /** `path_to_dir`: the corpus directory; reading it is not part of this model. */
    const pathToDir: string
    var sentences: seq<string>
    var bigrams: seq<Bigram>
    var trigrams: seq<Trigram>

    /** `__init__`: remembers the directory and starts with three empty lists. */
    constructor (pathToBrownCorpusDirectory: string)
      ensures pathToDir == pathToBrownCorpusDirectory
      ensures sentences == [] && bigrams == [] && trigrams == []
    {
      pathToDir := pathToBrownCorpusDirectory;
      sentences := [];
      bigrams := [];
      trigrams := [];
    }

    /**
     * `make_features`: appends the sentence's bigrams and trigrams, the same
     * windows `sentence_to_features` computes, behind those already stored.
     */
    method MakeFeatures(words: seq<string>)
      modifies this
      ensures |bigrams| == |old(bigrams)| + |words| + 1 && |trigrams| == |old(trigrams)| + |words|
      ensures bigrams[..|old(bigrams)|] == old(bigrams) && trigrams[..|old(trigrams)|] == old(trigrams)
      ensures bigrams[|old(bigrams)|..] == SentenceToFeatures(words).bigrams
      ensures trigrams[|old(trigrams)|..] == SentenceToFeatures(words).trigrams
      ensures sentences == old(sentences)
    {
      var tokens := Tokens(words);
      var newBigrams := Bigrams(tokens);
      var newTrigrams := Trigrams(tokens);
      ghost var before := (bigrams, trigrams);
      bigrams := bigrams + newBigrams;
      trigrams := trigrams + newTrigrams;
      assert bigrams[|before.0|..] == newBigrams && trigrams[|before.1|..] == newTrigrams;
    }

    /**
     * `extract_sentences_from_segment`: a segment without a multi-word unit
     * yields its tagged words, whose space-joined text is recorded as a
     * sentence; any other segment yields None and records nothing.
     * `taggedWords` is what the tag-matching regular expression finds in the
     * segment.
     */
    method ExtractSentencesFromSegment(segment: string, taggedWords: seq<string>) returns (sentence: Option<seq<string>>)
      modifies this
      ensures sentence.None? <==> Contains(segment, MultiWordMarker)
      ensures sentence.Some? ==> sentence.value == taggedWords
      ensures sentences == if sentence.Some? then old(sentences) + [Join(taggedWords)] else old(sentences)
      ensures bigrams == old(bigrams) && trigrams == old(trigrams)
    {
      if !Contains(segment, MultiWordMarker) {
        sentences := sentences + [Join(taggedWords)];
        return Some(taggedWords);
      }
      return None;
    }

    /** `clear_cache`: after saving, all three lists are empty again. */
    method ClearCache()
      modifies this
      ensures sentences == [] && bigrams == [] && trigrams == []
    {
      sentences := [];
      bigrams := [];
      trigrams := [];
    }
  }

  /** A segment holding the multi-word marker is recognised as one. */
  lemma MarkerSegment()
    ensures Contains("<w mw pos=\"x\">", MultiWordMarker)
  {
    assert "<w mw pos=\"x\">"[3..3 + |MultiWordMarker|] == MultiWordMarker;
    assert OccursAt("<w mw pos=\"x\">", MultiWordMarker, 3);
  }
}

=== FILE: monte_carlo.dfy ===
/**
 * The search engine of src/monte_carlo.py, playing the game of src/nlg.py.
 *
 * One iteration runs select, expand, simulate and, when the evaluation is
 * truthy, backpropagate. The weighted and uniform random picks are
 * nondeterministic choices among the offered tree keys or moves.
 */
module MonteCarlo {
  import opened Wrappers
  import opened Tree
  import opened Nlg

  /** What `simulate` returns: `False` when a running game offers no move, else the evaluation. */
  datatype Evaluation = NoMoves | Evaluated(value: int)

  /** Python truthiness of `simulate`'s result: `False` and `0` are falsy. */
  predicate Truthy(e: Evaluation) {
    e.Evaluated? && e.value != 0
  }

  /** What `expand` returns: `False`, or the extended path. */
  datatype Expansion = NotExpanded | Expanded(path: Path)

  /**
   * The exceptions raised by the running-mean branch of the leaf update:
   * `passes * None` when the leaf has no average yet, otherwise the
   * undefined name `simulation_evaluation`.
   */
  datatype LeafUpdateError = NoneOperand | UndefinedName

  /** The exceptions that escape `make_iteration`. */
  datatype IterationError =
    | SelectFailed(moveError: MoveNotAllowedError)
    | BackpropagateFailed(leafError: LeafUpdateError)

  /** The tree after the passes loop of `backpropagate`: every node on `path` is looked up and counted once. */
  function Bump(m: Nodes, path: Path): Nodes
    decreases |path|
  {
    if path == [] then m
    else
      var b := Bump(m, path[..|path| - 1]);
      b[path := Base(b, path).(passes := Base(b, path).passes + 1)]
  }

  /**
   * The counting loop creates exactly the missing nodes on `path` and adds one
   * pass to every node on `path`, leaving every other node as it was.
   */
  lemma {:induction false} BumpShape(m: Nodes, path: Path)
    ensures forall q {:trigger q in Bump(m, path)} :: q in Bump(m, path) <==> q in m || OnPath(q, path)
    ensures forall q {:trigger Bump(m, path)[q]} | q in Bump(m, path) ::
              Bump(m, path)[q] == Base(m, q).(passes := Base(m, q).passes + if OnPath(q, path) then 1 else 0)
    decreases |path|
  {
    if path != [] {
      var parent := path[..|path| - 1];
      var b, r := Bump(m, parent), Bump(m, path);
      OnPathStep(path);
      BumpShape(m, parent);
      assert !OnPath(path, parent);
      assert r == b[path := Base(b, path).(passes := Base(b, path).passes + 1)];
      forall q
        ensures q in r <==> q in m || OnPath(q, path)
        ensures q in r ==> r[q] == Base(m, q).(passes := Base(m, q).passes + if OnPath(q, path) then 1 else 0)
      {
        assert q in b <==> q in m || OnPath(q, parent);
        assert OnPath(q, path) <==> OnPath(q, parent) || q == path;
        if q != path {
          assert q in r <==> q in b;
        }
      }
    }
  }

  /** Counting one more step: the parent's bumped tree, the new node looked up, and one pass added to it. */
  lemma BumpStep(m: Nodes, path: Path, parent: Path)
    requires path != [] && parent == path[..|path| - 1]
    ensures var b := Bump(m, parent);
            Bump(m, path) == Vivify(b, path)[path := Base(b, path).(passes := Base(b, path).passes + 1)]
  {
    var b := Bump(m, parent);
    var leaf := Base(b, path).(passes := Base(b, path).passes + 1);
    assert Vivify(b, path)[path := leaf] == b[path := leaf];
  }

  /** One pass of the counting loop of `backpropagate`, at the `i`-th node of `path`. */
  lemma BumpLoopStep(m: Nodes, path: Path, i: nat)
    requires [] in m && i < |path|
    ensures path[..i] in Bump(m, path[..i])
    ensures path[..i] + [path[i]] == path[..i + 1]
    ensures var b := Bump(m, path[..i]);
            Bump(m, path[..i + 1]) == Vivify(b, path[..i + 1])[path[..i + 1] := Base(b, path[..i + 1]).(passes := Base(b, path[..i + 1]).passes + 1)]
  {
    var step := path[..i + 1];
    assert step[..|step| - 1] == path[..i];
    BumpShape(m, path[..i]);
    if i > 0 {
      assert OnPath(path[..i], path[..i]);
    }
    BumpStep(m, step, path[..i]);
  }

  /** After the counting loop every node on `path` exists, so the leaf update's walk adds nothing. */
  lemma BumpThenLookUp(m: Nodes, path: Path)
    requires [] in m
    ensures path[..|path|] == path
    ensures Materialize(Bump(m, path), path) == Bump(m, path)
  {
    assert path[..|path|] == path;
    BumpShape(m, path);
    MaterializeExisting(Bump(m, path), path);
  }

  /** `_backpropagate_change_leave_value` on a tree where the leaf at `path` exists. */
  function LeafUpdate(m: Nodes, path: Path, value: int): (Nodes, Outcome<LeafUpdateError>)
    requires path in m
  {
    var leaf := m[path];
    if leaf.passes == 1 then (m[path := leaf.(average := Some(value))], Pass)
    else (m, Fail(if leaf.average.None? then NoneOperand else UndefinedName))
  }

  /** The whole of `backpropagate`: the passes loop, then the leaf update. */
  function Backpropagated(m: Nodes, path: Path, value: int): (Nodes, Outcome<LeafUpdateError>)
    requires [] in m
  {
    BumpShape(m, path);
    assert path in Bump(m, path) by {
      if path != [] {
        assert OnPath(path, path);
      }
    }
    LeafUpdate(Bump(m, path), path, value)
  }

  /**
   * Backpropagation adds exactly one pass to every node on the path, creating
   * the missing ones, and changes no other node's passes.
   */
  lemma BackpropagatePasses(m: Nodes, path: Path, value: int)
    requires [] in m
    ensures var r := Backpropagated(m, path, value).0;
            && (forall q :: q in r <==> q in m || OnPath(q, path))
            && (forall q | q in r :: r[q].passes == Base(m, q).passes + if OnPath(q, path) then 1 else 0)
  {
    var b := Bump(m, path);
    BumpShape(m, path);
    assert path in b;
    var r := Backpropagated(m, path, value).0;
    assert r.Keys == b.Keys;
    forall q | q in r
      ensures r[q].passes == b[q].passes
    {
    }
  }

  /**
   * Only the leaf's average is written: on its first pass it becomes the value;
   * on a later pass the update raises and nothing is written.
   */
  lemma BackpropagateAverages(m: Nodes, path: Path, value: int)
    requires [] in m && path != []
    ensures var (r, outcome) := Backpropagated(m, path, value);
            && (forall q | q in r && q != path :: r[q].average == Base(m, q).average)
            && (Base(m, path).passes == 0 ==> outcome == Pass && r[path].average == Some(value))
            && (Base(m, path).passes > 0 ==> outcome.Fail? && r[path].average == Base(m, path).average)
            && (outcome == Fail(NoneOperand) <==> Base(m, path).passes > 0 && Base(m, path).average.None?)
  {
    var b := Bump(m, path);
    BumpShape(m, path);
    assert OnPath(path, path);
    assert b[path].passes == Base(m, path).passes + 1;
  }

  /**
   * `r` is `m0` after one pass was counted along `path`: it keeps every node of
   * `m0` and holds `path`, each node has the passes it had in `m0` (zero if it
   * is new) plus one when it lies on `path`, and every node other than the
   * leaf keeps its average.
   */
  ghost predicate PassCounted(m0: Nodes, r: Nodes, path: Path) {
    && m0.Keys <= r.Keys && path in r
    && (forall q | q in r :: r[q].passes == Base(m0, q).passes + if OnPath(q, path) then 1 else 0)
    && (forall q | q in r && q != path :: r[q].average == Base(m0, q).average)
  }

  /**
   * Backpropagating over a tree `m` that only added fresh nodes to `m0`, stated
   * against `m0`: every node of the result has the passes it had in `m0`
   * (zero if it is new) plus one on the path, every average off the leaf is
   * kept, and the leaf update succeeds exactly on the leaf's first pass.
   */
  lemma BackpropagateOverExtended(m0: Nodes, m: Nodes, path: Path, value: int)
    requires Extends(m0, m) && [] in m && path != []
    ensures var (r, outcome) := Backpropagated(m, path, value);
            && m.Keys <= r.Keys
            && PassCounted(m0, r, path)
            && (outcome.Pass? <==> Base(m0, path).passes == 0)
            && (outcome.Pass? ==> r[path].average == Some(value))
            && (outcome.Fail? ==> r[path].average == Base(m0, path).average)
            && (outcome == Fail(NoneOperand) <==> Base(m0, path).passes > 0 && Base(m0, path).average.None?)
  {
    BackpropagatePasses(m, path, value);
    BackpropagateAverages(m, path, value);
    assert OnPath(path, path);
    assert forall q :: Base(m, q) == Base(m0, q);
  }

  /**
   * `m` and `r` are the tree and outcome of an iteration that backpropagated
   * `value` along `path`, measured against the tree `m0` it started from: one
   * pass was counted along the path, and the leaf update passed and stored the
   * value exactly on the leaf's first pass; otherwise it failed with the leaf's
   * error, the type error exactly when the leaf had no average, and the leaf
   * kept its average.
   */
  ghost predicate Backpropagation(m0: Nodes, m: Nodes, path: Path, value: int, r: Outcome<IterationError>) {
    && PassCounted(m0, m, path)
    && (r.Pass? <==> Base(m0, path).passes == 0)
    && (r.Pass? ==> m[path].average == Some(value))
    && (r.Fail? ==> r.error.BackpropagateFailed? && m[path].average == Base(m0, path).average)
    && (r == Fail(BackpropagateFailed(NoneOperand)) <==> Base(m0, path).passes > 0 && Base(m0, path).average.None?)
  }

  /** Backpropagation keeps a prefix-closed tree prefix-closed: it adds exactly the nodes a lookup of the path adds. */
  lemma BackpropagatedClosed(m: Nodes, path: Path, value: int)
    requires PrefixClosed(m) && [] in m
    ensures PrefixClosed(Backpropagated(m, path, value).0)
  {
    var r := Backpropagated(m, path, value).0;
    BackpropagatePasses(m, path, value);
    MaterializeClosed(m, path);
    assert forall q :: q in r <==> q in Materialize(m, path);
  }

  /** Two rounds of lookups that each only add fresh nodes together only add fresh nodes. */
  lemma ExtendsTransitive(m0: Nodes, m1: Nodes, m2: Nodes)
    requires Extends(m0, m1) && Extends(m1, m2)
    ensures Extends(m0, m2)
  {
  }

  /** A sentence that extends `start` only by vocabulary words is `start` itself when the vocabulary is empty. */
  lemma OnlyStartWithoutMoves(start: seq<string>, state: seq<string>, vocabulary: seq<string>)
    requires |start| <= |state| && state[..|start|] == start
    requires forall i | |start| <= i < |state| :: state[i] in vocabulary
    ensures vocabulary == [] ==> state == start
  {
    if |state| > |start| {
      assert state[|start|] in vocabulary;
    }
  }

  /** `path` runs from the node of `root` down existing children of `tree`: every node on it exists. */
  ghost predicate Descent(tree: Nodes, root: string, path: Path) {
    && |path| >= 1 && path[0] == root && path in tree
    && (forall q | OnPath(q, path) :: q in tree)
  }

  /** The path holding only the root is a descent once the root node exists. */
  lemma DescentStart(tree: Nodes, root: string)
    requires [root] in tree
    ensures Descent(tree, root, [root])
  {
    assert [] + [root] == [root];
    PathsExtend(tree, [], root);
  }

  /** Following one more existing child keeps a descent. */
  lemma DescentStep(tree: Nodes, root: string, path: Path, key: string)
    requires Descent(tree, root, path) && key in Children(tree, path)
    ensures Descent(tree, root, path + [key])
  {
    PathsExtend(tree, path, key);
  }

  /** A descent that goes beyond the root passes through an existing child of the root, so it stays at the root while the root has no child. */
  lemma {:induction false} DescentBelowRoot(tree: Nodes, root: string, path: Path)
    requires Descent(tree, root, path) && |path| > 1
    ensures path[1] in Children(tree, [root])
  {
    assert OnPath(path[..2], path) && [root] + [path[1]] == path[..2];
  }

  /**
   * `e` is a result `simulate` can give for a game in `state` over `vocabulary`
   * judged by `judge`: False exactly when the game is not over (the sentence
   * is shorter than `SentenceLength`) and offers no move (`generate_next_moves`
   * returns the vocabulary, so it is empty); otherwise 1 or 0, the verdict of
   * `judge` on some sentence that completes `state` with vocabulary words.
   */
  ghost predicate Simulated(state: seq<string>, vocabulary: seq<string>, judge: seq<string> -> bool, e: Evaluation) {
    && (e.NoMoves? <==> |state| < SentenceLength && vocabulary == [])
    && (e.Evaluated? ==>
          && (e.value == 0 || e.value == 1)
          && exists final :: IsPlayout(state, vocabulary, final) && (e.value == 1 <==> judge(final)))
  }

  class MonteCarloTreeSearch {
    /** `game_master`: the game as it was handed in; every selection restarts from a copy of it. */
    const gameMaster: NLGame
    var currentGame: NLGame
    var currentPath: Path
    const searchTree: SearchTree
    /** `upc_coefficient`: the weight of the exploration term of the confidence bound. */
    const upcCoefficient: int
    var totalSimulationsRun: nat

    ghost predicate Valid()
      reads this, gameMaster, currentGame, searchTree
    {
      && gameMaster.Valid() && currentGame.Valid() && searchTree.Valid()
      && currentGame != gameMaster && SameRules(currentGame, gameMaster)
      && |currentPath| >= 1 && currentPath[0] == gameMaster.root
    }

    /** `__init__`: copies the game, starts the path at the game's root word and counts no simulation. */
    constructor (gameObject: NLGame, treeObject: SearchTree)
      requires gameObject.Valid() && treeObject.Valid()
      ensures Valid()
      ensures gameMaster == gameObject && searchTree == treeObject
      ensures fresh(currentGame) && currentGame.currentGameState == gameObject.currentGameState
      ensures currentPath == [gameObject.root] && totalSimulationsRun == 0 && upcCoefficient == 1
    {
      gameMaster := gameObject;
      var copy := gameObject.Copy();
      currentGame := copy;
      currentPath := [gameObject.root];
      searchTree := treeObject;
      upcCoefficient := 1;
      totalSimulationsRun := 0;
    }

    /**
     * `select`: restarts from a copy of the master game at the root and follows
     * existing tree children while there are any and the game is not over.
     */
    method Select() returns (r: Result<Path, MoveNotAllowedError>)
      requires Valid()
      modifies this, searchTree
      ensures Valid() && fresh(currentGame)
      ensures totalSimulationsRun == old(totalSimulationsRun)
      ensures searchTree.nodes == Vivify(old(searchTree.nodes), [gameMaster.root])
      ensures Descent(searchTree.nodes, gameMaster.root, currentPath)
      ensures r.Success? ==> r.value == currentPath
      ensures r.Success? ==> currentGame.currentGameState == gameMaster.currentGameState + currentPath[1..]
      ensures r.Success? ==> Children(searchTree.nodes, currentPath) == {} || currentGame.CheckGameOver()
      ensures r.Failure? ==>
                && |currentPath| >= 2
                && r.error == MoveNotAllowed(currentPath[|currentPath| - 1])
                && r.error.move !in gameMaster.possibleMoves
                && currentGame.currentGameState == gameMaster.currentGameState + currentPath[1..|currentPath| - 1]
    {
      currentGame := gameMaster.Copy();
      currentPath := [gameMaster.root];
      assert [] + [gameMaster.root] == currentPath;
      // Looked up only for its effect: the root node is created on first use.
      // The loop then follows children by path rather than through the node.
      var _ := searchTree.Get([], gameMaster.root);
      ghost var tree := searchTree.nodes;
      DescentStart(tree, gameMaster.root);
      var children := Children(searchTree.nodes, currentPath);
      while children != {} && !currentGame.CheckGameOver()
        invariant fresh(currentGame) && currentGame.Valid() && SameRules(currentGame, gameMaster)
        invariant totalSimulationsRun == old(totalSimulationsRun)
        invariant searchTree.nodes == tree
        invariant Descent(tree, gameMaster.root, currentPath)
        invariant children == Children(tree, currentPath)
        invariant currentGame.currentGameState == gameMaster.currentGameState + currentPath[1..]
        decreases currentGame.sentenceLength - |currentGame.currentGameState|
      {
        var chosen :| chosen in children;
        ghost var before := currentPath;
        currentPath := currentPath + [chosen];
        assert currentPath[1..] == before[1..] + [chosen];
        DescentStep(tree, gameMaster.root, before, chosen);
        var moved := currentGame.MakeAMove(chosen);
        if moved.Fail? {
          assert currentPath[1..|currentPath| - 1] == before[1..];
          return Failure(moved.error);
        }
        children := Children(searchTree.nodes, currentPath);
      }
      return Success(currentPath);
    }

    /**
     * `expand`: when the game offers moves, plays one of them, appends it to the
     * path and looks the whole path up in the tree, creating the new leaf.
     */
    method Expand() returns (r: Expansion)
      requires Valid()
      modifies this, currentGame, searchTree
      ensures Valid() && currentGame == old(currentGame)
      ensures totalSimulationsRun == old(totalSimulationsRun)
      ensures old(currentGame.GenerateNextMoves()) == [] ==>
                && r == NotExpanded && currentPath == old(currentPath)
                && currentGame.currentGameState == old(currentGame.currentGameState)
                && searchTree.nodes == old(searchTree.nodes)
      ensures old(currentGame.GenerateNextMoves()) != [] ==>
                && |currentPath| == |old(currentPath)| + 1
                && currentPath == old(currentPath) + [currentPath[|currentPath| - 1]]
                && currentPath[|currentPath| - 1] in old(currentGame.GenerateNextMoves())
                && currentGame.currentGameState == old(currentGame.currentGameState) + [currentPath[|currentPath| - 1]]
                && searchTree.nodes == Materialize(old(searchTree.nodes), currentPath)
                && r == Expanded(currentPath)
      ensures old(currentGame.currentGameState == gameMaster.currentGameState + currentPath[1..]) ==>
                currentGame.currentGameState == gameMaster.currentGameState + currentPath[1..]
    {
      var children := currentGame.GenerateNextMoves();
      if |children| == 0 {
        return NotExpanded;
      }
      var i :| 0 <= i < |children|;
      var expansionChild := children[i];
      // `expansionChild` is one of the offered moves, so the move always passes.
      var _ := currentGame.MakeAMove(expansionChild);
      ghost var before := currentPath;
      currentPath := currentPath + [expansionChild];
      assert currentPath[1..] == before[1..] + [expansionChild];
      // Walked only for its effect: every node on the new path is created.
      var _ := searchTree.Walk(currentPath);
      return Expanded(currentPath);
    }

    /**
     * `simulate`: plays random moves on a copy of the current game until it is
     * over and evaluates it; the current game and path are left alone.
     */
    method Simulate() returns (r: Evaluation)
      requires Valid()
      modifies this
      ensures Valid()
      ensures currentGame == old(currentGame) && currentPath == old(currentPath)
      ensures Simulated(currentGame.currentGameState, currentGame.possibleMoves, currentGame.judge, r)
      ensures r.NoMoves? ==> totalSimulationsRun == old(totalSimulationsRun)
      ensures r.Evaluated? ==> totalSimulationsRun == old(totalSimulationsRun) + 1
    {
      var simulatedGame := currentGame.Copy();
      ghost var start := currentGame.currentGameState;
      while !simulatedGame.CheckGameOver()
        invariant fresh(simulatedGame) && simulatedGame.Valid() && SameRules(simulatedGame, currentGame)
        invariant currentGame == old(currentGame) && currentPath == old(currentPath)
        invariant totalSimulationsRun == old(totalSimulationsRun)
        invariant |start| <= |simulatedGame.currentGameState|
        invariant simulatedGame.currentGameState[..|start|] == start
        invariant forall i | |start| <= i < |simulatedGame.currentGameState| ::
                    simulatedGame.currentGameState[i] in currentGame.possibleMoves
        invariant |simulatedGame.currentGameState| > |start| ==> |simulatedGame.currentGameState| <= SentenceLength
        decreases simulatedGame.sentenceLength - |simulatedGame.currentGameState|
      {
        var children := simulatedGame.GenerateNextMoves();
        if |children| == 0 {
          OnlyStartWithoutMoves(start, simulatedGame.currentGameState, currentGame.possibleMoves);
          return NoMoves;
        }
        var i :| 0 <= i < |children|;
        var expansionChild := children[i];
        // The move always passes; the source also extends a copy of the path here that it never reads.
        var _ := simulatedGame.MakeAMove(expansionChild);
      }
      assert IsPlayout(start, currentGame.possibleMoves, simulatedGame.currentGameState);
      if currentGame.possibleMoves == [] {
        OnlyStartWithoutMoves(start, simulatedGame.currentGameState, currentGame.possibleMoves);
      }
      var evaluation := simulatedGame.EvaluateGame();
      totalSimulationsRun := totalSimulationsRun + 1;
      return Evaluated(evaluation);
    }

    /** `_backpropagate_change_leave_value`: looks `path` up and sets the leaf's average on its first pass. */
    method BackpropagateChangeLeaveValue(path: Path, value: int) returns (r: Outcome<LeafUpdateError>)
      requires searchTree.Valid()
      modifies searchTree
      ensures searchTree.Valid()
      ensures (searchTree.nodes, r) == LeafUpdate(Materialize(old(searchTree.nodes), path), path, value)
    {
      var currentLeaf := searchTree.Walk(path);
      if currentLeaf.passes == 1 {
        searchTree.nodes := searchTree.nodes[path := currentLeaf.(average := Some(value))];
        r := Pass;
      } else if currentLeaf.average.None? {
        r := Fail(NoneOperand);
      } else {
        r := Fail(UndefinedName);
      }
    }

    /** `backpropagate`: counts one pass at every node of the current path, then updates the leaf. */
    method Backpropagate(simulationEvaluation: int) returns (r: Outcome<LeafUpdateError>)
      requires Valid()
      modifies searchTree
      ensures Valid()
      ensures (searchTree.nodes, r) == Backpropagated(old(searchTree.nodes), currentPath, simulationEvaluation)
    {
      ghost var m0 := searchTree.nodes;
      var path := currentPath;
      for i := 0 to |path|
        invariant [] in searchTree.nodes
        invariant searchTree.nodes == Bump(m0, path[..i])
        modifies searchTree
      {
        BumpLoopStep(m0, path, i);
        ghost var b, step := searchTree.nodes, path[..i + 1];
        var currentLeaf := searchTree.Get(path[..i], path[i]);
        assert searchTree.nodes == Vivify(b, step) && currentLeaf == Base(b, step);
        searchTree.nodes := searchTree.nodes[path[..i + 1] := currentLeaf.(passes := currentLeaf.passes + 1)];
        assert searchTree.nodes == Vivify(b, step)[step := Base(b, step).(passes := Base(b, step).passes + 1)];
      }
      BumpThenLookUp(m0, path);
      r := BackpropagateChangeLeaveValue(path, simulationEvaluation);
    }

    /**
     * The last two lines of `make_iteration`: simulate, then backpropagate the
     * evaluation when it is truthy. `m0` is the tree before the iteration's
     * select, which only added fresh nodes since.
     */
    method SimulateAndBackpropagate(ghost m0: Nodes) returns (r: Outcome<IterationError>, evaluation: Evaluation)
      requires Valid() && Extends(m0, searchTree.nodes)
      requires PrefixClosed(m0) ==> PrefixClosed(searchTree.nodes)
      modifies this, searchTree
      ensures Valid()
      ensures currentGame == old(currentGame) && currentPath == old(currentPath)
      ensures currentGame.currentGameState == old(currentGame.currentGameState)
      ensures Simulated(currentGame.currentGameState, currentGame.possibleMoves, currentGame.judge, evaluation)
      ensures totalSimulationsRun == old(totalSimulationsRun) + if evaluation.Evaluated? then 1 else 0
      ensures !Truthy(evaluation) ==> r == Pass && searchTree.nodes == old(searchTree.nodes)
      ensures Truthy(evaluation) ==> m0.Keys <= searchTree.nodes.Keys && Backpropagation(m0, searchTree.nodes, currentPath, evaluation.value, r)
      ensures PrefixClosed(m0) ==> PrefixClosed(searchTree.nodes)
    {
      ghost var m := searchTree.nodes;
      evaluation := Simulate();
      r := Pass;
      if Truthy(evaluation) {
        var outcome := Backpropagate(evaluation.value);
        BackpropagateOverExtended(m0, m, currentPath, evaluation.value);
        if PrefixClosed(m0) {
          BackpropagatedClosed(m, currentPath, evaluation.value);
        }
        if outcome.Fail? {
          r := Fail(BackpropagateFailed(outcome.error));
        }
      }
    }

    /**
     * `make_iteration`: select, expand, simulate, and backpropagate only a truthy
     * evaluation. `evaluation` is what `simulate` returned, or None when
     * `select` raised.
     */
    method MakeIteration() returns (r: Outcome<IterationError>, ghost evaluation: Option<Evaluation>)
      requires Valid()
      modifies this, searchTree
      ensures Valid()
      ensures old(searchTree.nodes).Keys <= searchTree.nodes.Keys
      ensures evaluation.None? <==> r.Fail? && r.error.SelectFailed?
      ensures evaluation.None? || !Truthy(evaluation.value) ==> Extends(old(searchTree.nodes), searchTree.nodes)
      ensures evaluation.Some? && Truthy(evaluation.value) ==>
                Backpropagation(old(searchTree.nodes), searchTree.nodes, currentPath, evaluation.value.value, r)
      ensures PrefixClosed(old(searchTree.nodes)) ==> PrefixClosed(searchTree.nodes)
      ensures evaluation.None? ==>
                && searchTree.nodes == Vivify(old(searchTree.nodes), [gameMaster.root])
                && Descent(searchTree.nodes, gameMaster.root, currentPath)
                && |currentPath| >= 2
                && r.error == SelectFailed(MoveNotAllowed(currentPath[|currentPath| - 1]))
                && currentPath[|currentPath| - 1] !in gameMaster.possibleMoves
                && totalSimulationsRun == old(totalSimulationsRun)
      ensures evaluation.Some? ==>
                && currentGame.currentGameState == gameMaster.currentGameState + currentPath[1..]
                && Simulated(currentGame.currentGameState, currentGame.possibleMoves, currentGame.judge, evaluation.value)
      ensures evaluation.Some? ==>
                totalSimulationsRun == old(totalSimulationsRun) + if evaluation.value.Evaluated? then 1 else 0
    {
      ghost var m0 := searchTree.nodes;
      var selected := Select();
      if PrefixClosed(m0) {
        VivifyClosed(m0, [gameMaster.root]);
      }
      if selected.Failure? {
        return Fail(SelectFailed(selected.error)), None;
      }
      ghost var m1 := searchTree.nodes;
      // The expansion is not read: the path it returns is also `currentPath`.
      var _ := Expand();
      ExtendsTransitive(m0, m1, searchTree.nodes);
      if PrefixClosed(m0) {
        MaterializeClosed(m1, currentPath);
      }
      var simulationEvaluation;
      r, simulationEvaluation := SimulateAndBackpropagate(m0);
      evaluation := Some(simulationEvaluation);
    }
  }

  /**
   * A first iteration on a fresh tree, playing the test game of
   * test/test_nlg.py with a classifier that accepts every sentence: select
   * stops at the root word, the playout is judged 1, and backpropagation
   * counts the first pass at the root word and succeeds.
   */
  method FirstIterationExample() returns (r: Outcome<IterationError>, rootPasses: nat)
    ensures r == Pass && rootPasses == 1
  {
    InitiationExamples();
    var made := NLGame.New(TestVocabulary, ["my", "name"], "my", _ => true);
    var game := made.value;
    var tree := new SearchTree();
    var engine := new MonteCarloTreeSearch(game, tree);
    ghost var evaluation;
    r, evaluation := engine.MakeIteration();
    ghost var path := engine.currentPath;
    assert OnPath(["my"], path) && path[..1] in tree.nodes;
    rootPasses := tree.nodes[["my"]].passes;
  }
}

=== FILE: nlg.dfy ===
/**
 * The sentence-building game of src/nlg.py: words of a vocabulary are
 * appended to a sentence that starts with a fixed word, until the sentence
 * holds four words.
 */
module Nlg {
  import opened Wrappers

  /** The messages of `GameInitiationError`, one constructor per check. */
  datatype GameInitiationError =
    | DuplicateWords(duplicates: set<string>)
    | EmptyStartingWord
    | EmptyGameState
    | FirstWordNotStartingWord

  datatype MoveNotAllowedError = MoveNotAllowed(move: string)

  /** `sentence_length`: a game is over once its sentence has this many words. */
  const SentenceLength: nat := 4

  /** `words.count(w)`. */
  function Occurrences(words: seq<string>, w: string): (n: nat)
    ensures n == 0 <==> w !in words
  {
    if words == [] then 0
    else (if words[0] == w then 1 else 0) + Occurrences(words[1..], w)
  }

  /** `w` occurs at two different positions of `words`. */
  ghost predicate Repeated(words: seq<string>, w: string) {
    exists i, j :: 0 <= i < j < |words| && words[i] == w && words[j] == w
  }

  /** Counting more than one occurrence is the same as finding two positions. */
  lemma {:induction false} OccurrencesAboveOne(words: seq<string>, w: string)
    ensures Occurrences(words, w) > 1 <==> Repeated(words, w)
  {
    if words != [] {
      var rest := words[1..];
      OccurrencesAboveOne(rest, w);
      if Repeated(rest, w) {
        var i, j :| 0 <= i < j < |rest| && rest[i] == w && rest[j] == w;
        assert words[i + 1] == w && words[j + 1] == w;
      }
      if words[0] == w && w in rest {
        var j :| 0 <= j < |rest| && rest[j] == w;
        assert words[j + 1] == w;
      }
      if Repeated(words, w) {
        var i, j :| 0 <= i < j < |words| && words[i] == w && words[j] == w;
        assert rest[j - 1] == w;
        if i > 0 {
          assert rest[i - 1] == w;
        }
      }
    }
  }

  /** The duplicate set built in `_check_game_correctly_initiated`. */
  function Duplicates(words: seq<string>): (dups: set<string>)
    ensures forall w :: w in dups <==> Repeated(words, w)
  {
    var dups := set w | w in words && Occurrences(words, w) > 1;
    assert forall w :: w in dups <==> Repeated(words, w) by {
      forall w
        ensures w in dups <==> Repeated(words, w)
      {
        OccurrencesAboveOne(words, w);
      }
    }
    dups
  }

  /** The vocabulary has no word twice. */
  ghost predicate Distinct(words: seq<string>) {
    forall i, j | 0 <= i < j < |words| :: words[i] != words[j]
  }

  /**
   * `_check_game_correctly_initiated`: the checks run in order and the first
   * one that fails raises.
   */
  function CheckGameCorrectlyInitiated(vocabulary: seq<string>, root: string, state: seq<string>)
    : (r: Outcome<GameInitiationError>)
    ensures r.Fail? && r.error.DuplicateWords? <==> !Distinct(vocabulary)
    ensures r.Fail? && r.error.DuplicateWords? ==> r.error.duplicates != {}
    ensures r.Fail? && r.error.DuplicateWords? ==>
              forall w :: w in r.error.duplicates <==> Repeated(vocabulary, w)
    ensures r == Fail(EmptyStartingWord) <==> Distinct(vocabulary) && root == ""
    ensures r == Fail(EmptyGameState) <==> Distinct(vocabulary) && root != "" && state == []
    ensures r.Pass? <==> Distinct(vocabulary) && root != "" && state != [] && state[0] == root
  {
    var dups := Duplicates(vocabulary);
    assert dups == {} <==> Distinct(vocabulary) by {
      if !Distinct(vocabulary) {
        var i, j :| 0 <= i < j < |vocabulary| && vocabulary[i] == vocabulary[j];
        assert vocabulary[i] in dups;
      }
    }
    if |dups| != 0 then Fail(DuplicateWords(dups))
    else if |root| == 0 then Fail(EmptyStartingWord)
    else if |state| == 0 then Fail(EmptyGameState)
    else if state[0] != root then Fail(FirstWordNotStartingWord)
    else Pass
  }

  /** A legal playout of `state`: moves from `vocabulary` appended until the sentence is long enough. */
  ghost predicate IsPlayout(state: seq<string>, vocabulary: seq<string>, final: seq<string>) {
    && |final| == (if |state| < SentenceLength then SentenceLength else |state|)
    && final[..|state|] == state
    && forall i | |state| <= i < |final| :: final[i] in vocabulary
  }

  /** Two games that play by the same rules: a game and its deep copy. */
  ghost predicate SameRules(g: NLGame, h: NLGame) {
    && g.root == h.root && g.possibleMoves == h.possibleMoves
    && g.sentenceLength == h.sentenceLength && g.judge == h.judge
  }

  class NLGame {
    /** `root`: the starting word. */
    const root: string
    /** `possible_moves`: the vocabulary. */
    const possibleMoves: seq<string>
    var currentGameState: seq<string>
    const sentenceLength: nat
    /** The verdict of the sentence classifier on a finished sentence; the classifier itself is not part of this model. */
    const judge: seq<string> -> bool

    ghost predicate Valid()
      reads this
    {
      && Distinct(possibleMoves) && root != "" && currentGameState != [] && currentGameState[0] == root
      && sentenceLength == SentenceLength
    }

    /** The part of `__init__` after the checks passed. */
    constructor (vocabulary: seq<string>, state: seq<string>, startingWord: string, judge: seq<string> -> bool)
      requires CheckGameCorrectlyInitiated(vocabulary, startingWord, state).Pass?
      ensures Valid()
      ensures root == startingWord && possibleMoves == vocabulary && currentGameState == state
      ensures this.judge == judge
    {
      root := startingWord;
      possibleMoves := vocabulary;
      currentGameState := state;
      sentenceLength := SentenceLength;
      this.judge := judge;
    }

    /** `NLGame(...)`: raises `GameInitiationError` when a check fails, otherwise builds the game. */
    static method New(vocabulary: seq<string>, state: seq<string>, startingWord: string, judge: seq<string> -> bool)
      returns (r: Result<NLGame, GameInitiationError>)
      ensures r.Failure? <==> CheckGameCorrectlyInitiated(vocabulary, startingWord, state).Fail?
      ensures r.Failure? ==> Fail(r.error) == CheckGameCorrectlyInitiated(vocabulary, startingWord, state)
      ensures r.Success? ==> fresh(r.value) && r.value.Valid()
      ensures r.Success? ==> r.value.root == startingWord && r.value.possibleMoves == vocabulary
                             && r.value.currentGameState == state && r.value.judge == judge
    {
      var check := CheckGameCorrectlyInitiated(vocabulary, startingWord, state);
      if check.Fail? {
        return Failure(check.error);
      }
      var g := new NLGame(vocabulary, state, startingWord, judge);
      return Success(g);
    }

    /** `_check_move_possible`: a move is allowed iff it is a vocabulary word. */
    function CheckMovePossible(move: string): (possible: bool)
      ensures possible <==> move in possibleMoves
    {
      if move !in possibleMoves then false else true
    }

    /** `_check_game_over`. */
    function CheckGameOver(): (over: bool)
      reads this
      ensures over <==> |currentGameState| >= sentenceLength
    {
      if |currentGameState| >= sentenceLength then true else false
    }

    /** The filter of `generate_next_moves`, applied to `moves`. */
    function KeepPossible(moves: seq<string>): (kept: seq<string>)
      ensures forall w :: w in kept <==> w in moves && CheckMovePossible(w)
      ensures (forall i | 0 <= i < |moves| :: moves[i] in possibleMoves) ==> kept == moves
    {
      if moves == [] then []
      else (if CheckMovePossible(moves[0]) then [moves[0]] else []) + KeepPossible(moves[1..])
    }

    /** `generate_next_moves`: every vocabulary word passes the check, so it is the vocabulary in order. */
    function GenerateNextMoves(): (moves: seq<string>)
      ensures moves == possibleMoves
    {
      KeepPossible(possibleMoves)
    }

    /** `make_a_move`: appends an allowed move, raises `MoveNotAllowedError` otherwise. */
    method MakeAMove(move: string) returns (r: Outcome<MoveNotAllowedError>)
      requires Valid()
      modifies this
      ensures Valid()
      ensures r.Pass? <==> move in possibleMoves
      ensures r.Fail? ==> r.error == MoveNotAllowed(move)
      ensures currentGameState == if r.Pass? then old(currentGameState) + [move] else old(currentGameState)
    {
      if !CheckMovePossible(move) {
        return Fail(MoveNotAllowed(move));
      }
      currentGameState := currentGameState + [move];
      return Pass;
    }

    /** `evaluate_game`: 1 if the classifier judges the sentence human, 0 otherwise. */
    function EvaluateGame(): (value: int)
      reads this
      ensures value == 0 || value == 1
      ensures value == 1 <==> judge(currentGameState)
    {
      if judge(currentGameState) then 1 else 0
    }

    /** `deepcopy`: an independent game with the same fields. */
    method Copy() returns (g: NLGame)
      requires Valid()
      ensures fresh(g) && g.Valid()
      ensures g.root == root && g.possibleMoves == possibleMoves && g.currentGameState == currentGameState
      ensures g.sentenceLength == sentenceLength && g.judge == judge
    {
      g := new NLGame(possibleMoves, currentGameState, root, judge);
    }
  }

  /** The vocabulary of test/test_nlg.py. */
  const TestVocabulary: seq<string> := ["my", "name", "is", "was", "not", "john", "michael"]

  /** No word of the test vocabulary repeats: any two differ in length or in their first letter. */
  lemma TestVocabularyDistinct()
    ensures Distinct(TestVocabulary)
  {
    forall i, j | 0 <= i < j < |TestVocabulary|
      ensures TestVocabulary[i] != TestVocabulary[j]
    {
      assert |TestVocabulary[i]| != |TestVocabulary[j]| || TestVocabulary[i][0] != TestVocabulary[j][0];
    }
  }

  /** The initiation cases of test/test_nlg.py. */
  lemma InitiationExamples()
    ensures CheckGameCorrectlyInitiated(TestVocabulary, "my", ["my", "name"]).Pass?
    ensures CheckGameCorrectlyInitiated(TestVocabulary, "my", ["name"]) == Fail(FirstWordNotStartingWord)
    ensures CheckGameCorrectlyInitiated(TestVocabulary, "my", []) == Fail(EmptyGameState)
    ensures CheckGameCorrectlyInitiated(TestVocabulary, "", ["my"]) == Fail(EmptyStartingWord)
  {
    TestVocabularyDistinct();
  }

  /** A vocabulary with a repeated word is refused, naming exactly that word. */
  lemma DuplicateExample()
    ensures CheckGameCorrectlyInitiated(["my", "name", "my"], "my", ["my"]) == Fail(DuplicateWords({"my"}))
  {
    var twice := ["my", "name", "my"];
    var dups := Duplicates(twice);
    assert twice[0] == "my" && twice[2] == "my";
    assert Repeated(twice, "my");
    forall w | w in dups ensures w == "my" {
      var i, j :| 0 <= i < j < |twice| && twice[i] == w && twice[j] == w;
    }
    assert dups == {"my"};
  }

  /** The move checks of test/test_nlg.py: "is" and "john" are allowed, "slkdfj" and "" are not. */
  method CheckMovesExample() returns (isOk: bool, johnOk: bool, gibberishOk: bool, emptyOk: bool)
    ensures isOk && johnOk && !gibberishOk && !emptyOk
  {
    InitiationExamples();
    var r := NLGame.New(TestVocabulary, ["my", "name"], "my", _ => true);
    var g := r.value;
    isOk, johnOk := g.CheckMovePossible("is"), g.CheckMovePossible("john");
    gibberishOk, emptyOk := g.CheckMovePossible("slkdfj"), g.CheckMovePossible("");
  }
}

=== FILE: sentence_classifier.dfy ===
/**
 * The n-gram features of src/sentence_classifier/sentence_classifier.py: a
 * sentence is framed by start and end markers, cut into consecutive bigrams
 * and trigrams, and scored by the share of them found in known n-gram sets.
 */
module SentenceClassifier {
  import opened Wrappers

  type Bigram = (string, string)
  type Trigram = (string, string, string)

  /** The two feature lists `sentence_to_features` returns. */
  datatype Features = Features(bigrams: seq<Bigram>, trigrams: seq<Trigram>)

  /** The two overlap scores `compute_score_overlap_with_known` returns. */
  datatype Scores = Scores(bigram: real, trigram: real)

  /** The only exception the scoring raises: an empty n-gram list divides by zero. */
  datatype ScoreError = ZeroDivision

  /** The marker in front of every sentence. */
  const StartMarker: string := "@>"
  /** The marker behind every sentence. */
  const EndMarker: string := "<@"

  /** Python's `zip(xs, ys)`: pairs up to the shorter input. */
  function Zip2<A, B>(xs: seq<A>, ys: seq<B>): (r: seq<(A, B)>)
    ensures |r| == if |xs| < |ys| then |xs| else |ys|
    ensures forall i {:trigger r[i]} | 0 <= i < |r| :: r[i] == (xs[i], ys[i])
  {
    if xs == [] || ys == [] then []
    else [(xs[0], ys[0])] + Zip2(xs[1..], ys[1..])
  }

  /** Python's `zip(xs, ys, zs)`: triples up to the shortest input. */
  function Zip3<A, B, C>(xs: seq<A>, ys: seq<B>, zs: seq<C>): (r: seq<(A, B, C)>)
    ensures |r| == if |xs| <= |ys| && |xs| <= |zs| then |xs| else if |ys| <= |zs| then |ys| else |zs|
    ensures forall i {:trigger r[i]} | 0 <= i < |r| :: r[i] == (xs[i], ys[i], zs[i])
  {
    if xs == [] || ys == [] || zs == [] then []
    else [(xs[0], ys[0], zs[0])] + Zip3(xs[1..], ys[1..], zs[1..])
  }

  /** The words framed by the start and end markers. */
  function Tokens(words: seq<string>): (tokens: seq<string>)
    ensures |tokens| == |words| + 2
    ensures tokens[0] == StartMarker && tokens[|tokens| - 1] == EndMarker
    ensures forall i | 0 <= i < |words| :: tokens[i + 1] == words[i]
  {
    [StartMarker] + words + [EndMarker]
  }

  /** The consecutive pairs of `tokens`: `zip(tokens, tokens[1:])`. */
  function Bigrams(tokens: seq<string>): (r: seq<Bigram>)
    ensures |r| == if |tokens| >= 1 then |tokens| - 1 else 0
    ensures forall i {:trigger r[i]} | 0 <= i < |r| :: r[i] == (tokens[i], tokens[i + 1])
  {
    if tokens == [] then [] else Zip2(tokens, tokens[1..])
  }

  /** The consecutive triples of `tokens`: `zip(tokens, tokens[1:], tokens[2:])`. */
  function Trigrams(tokens: seq<string>): (r: seq<Trigram>)
    ensures |r| == if |tokens| >= 2 then |tokens| - 2 else 0
    ensures forall i {:trigger r[i]} | 0 <= i < |r| :: r[i] == (tokens[i], tokens[i + 1], tokens[i + 2])
  {
    if |tokens| < 2 then [] else Zip3(tokens, tokens[1..], tokens[2..])
  }

  /**
   * `sentence_to_features`: one bigram more than there are words and one
   * trigram per word. The first bigram starts at the start marker and the last
   * one ends at the end marker; word `i` ends bigram `i`, starts bigram `i + 1`
   * and is the middle of trigram `i`, which spans bigrams `i` and `i + 1`.
   */
  function SentenceToFeatures(words: seq<string>): (f: Features)
    ensures |f.bigrams| == |words| + 1 && |f.trigrams| == |words|
    ensures f.bigrams[0].0 == StartMarker && f.bigrams[|words|].1 == EndMarker
    ensures forall i | 0 <= i < |words| :: f.bigrams[i].1 == words[i] && f.bigrams[i + 1].0 == words[i]
    ensures forall i | 0 <= i < |words| ::
              f.trigrams[i] == (f.bigrams[i].0, words[i], f.bigrams[i + 1].1)
  {
    var tokens := Tokens(words);
    var bigrams := Bigrams(tokens);
    var trigrams := Trigrams(tokens);
    Features(bigrams, trigrams)
  }

  /** `sum(map(lambda g: g in known, grams))`: how many of `grams` are known. */
  function CountKnown<T>(grams: seq<T>, known: set<T>): (n: nat)
    ensures n <= |grams|
    ensures n == |grams| <==> forall i | 0 <= i < |grams| :: grams[i] in known
    ensures n == 0 <==> forall i | 0 <= i < |grams| :: grams[i] !in known
  {
    if grams == [] then 0
    else
      var rest := CountKnown(grams[1..], known);
      assert forall i | 1 <= i < |grams| :: grams[i] == grams[1..][i - 1];
      (if grams[0] in known then 1 else 0) + rest
  }

  /** A count `n` out of `d` as a share: it lies in [0, 1], and is 1 or 0 exactly when all or none count. */
  lemma Share(n: nat, d: nat)
    requires 0 < d && n <= d
    ensures (n as real / d as real) * d as real == n as real
    ensures 0.0 <= n as real / d as real <= 1.0
    ensures n as real / d as real == 1.0 <==> n == d
    ensures n as real / d as real == 0.0 <==> n == 0
  {
    var s := n as real / d as real;
    assert s * d as real == n as real;
  }

  /**
   * One overlap score: the share of known n-grams, or the division by zero an
   * empty list causes.
   */
  function OverlapScore<T>(grams: seq<T>, known: set<T>): (r: Result<real, ScoreError>)
    ensures r.Failure? <==> grams == []
    ensures r.Success? ==> r.value == CountKnown(grams, known) as real / |grams| as real
    ensures r.Success? ==> 0.0 <= r.value <= 1.0
    ensures r.Success? ==> (r.value == 1.0 <==> forall i | 0 <= i < |grams| :: grams[i] in known)
    ensures r.Success? ==> (r.value == 0.0 <==> forall i | 0 <= i < |grams| :: grams[i] !in known)
  {
    if |grams| == 0 then Failure(ZeroDivision)
    else
      var n := CountKnown(grams, known);
      Share(n, |grams|);
      Success(n as real / |grams| as real)
  }

  /** `compute_score_overlap_with_known`: the bigram score is computed, and may fail, first. */
  function ComputeScoreOverlapWithKnown(bigrams: seq<Bigram>, trigrams: seq<Trigram>,
                                        knownBigrams: set<Bigram>, knownTrigrams: set<Trigram>)
    : (r: Result<Scores, ScoreError>)
    ensures r.Failure? <==> bigrams == [] || trigrams == []
    ensures r.Success? ==> r.value.bigram == OverlapScore(bigrams, knownBigrams).value
    ensures r.Success? ==> r.value.trigram == OverlapScore(trigrams, knownTrigrams).value
  {
    var bigramScore := OverlapScore(bigrams, knownBigrams);
    if bigramScore.Failure? then Failure(bigramScore.error)
    else
      var trigramScore := OverlapScore(trigrams, knownTrigrams);
      if trigramScore.Failure? then Failure(trigramScore.error)
      else Success(Scores(bigramScore.value, trigramScore.value))
  }

  /**
   * `compute_feature`: the overlap scores of the sentence's features. It fails
   * exactly on the empty sentence, which has no trigram; otherwise both
   * scores are shares in [0, 1].
   */
  function ComputeFeature(words: seq<string>, knownBigrams: set<Bigram>, knownTrigrams: set<Trigram>)
    : (r: Result<Scores, ScoreError>)
    ensures r.Failure? <==> words == []
    ensures r.Success? ==> 0.0 <= r.value.bigram <= 1.0 && 0.0 <= r.value.trigram <= 1.0
    ensures r.Success? ==>
              (r.value.trigram == 1.0 <==> forall i | 0 <= i < |words| :: SentenceToFeatures(words).trigrams[i] in knownTrigrams)
  {
    var features := SentenceToFeatures(words);
    ComputeScoreOverlapWithKnown(features.bigrams, features.trigrams, knownBigrams, knownTrigrams)
  }

  /** A single known word framed by the markers scores 1 on both counts, and an unknown one 0. */
  lemma ScoresOfOneWord(w: string)
    ensures ComputeFeature([w], {(StartMarker, w), (w, EndMarker)}, {(StartMarker, w, EndMarker)})
            == Success(Scores(1.0, 1.0))
    ensures ComputeFeature([w], {}, {}) == Success(Scores(0.0, 0.0))
  {
    var f := SentenceToFeatures([w]);
    assert f.bigrams == [(StartMarker, w), (w, EndMarker)];
    assert f.trigrams == [(StartMarker, w, EndMarker)];
  }
}

=== FILE: text.dfy ===
/**
 * The Python string operations the sentence code relies on: `str.split()`
 * with no separator, `" ".join`, `in` on strings and `str.startswith`.
 */
module Text {

  /** The characters `str.split()` and `str.isspace()` treat as whitespace. */
  predicate IsWhitespace(c: char) {
    var n := c as int;
    || 0x09 <= n <= 0x0D || 0x1C <= n <= 0x20 || n == 0x85 || n == 0xA0 || n == 0x1680
    || 0x2000 <= n <= 0x200A || n == 0x2028 || n == 0x2029 || n == 0x202F || n == 0x205F || n == 0x3000
  }

  /** A word `str.split()` can produce: non-empty and free of whitespace. */
  predicate IsWord(w: string) {
    w != [] && forall i | 0 <= i < |w| :: !IsWhitespace(w[i])
  }

  /** The length of the word `s` starts with: up to the first whitespace or the end. */
  function WordLength(s: string): (n: nat)
    requires s != [] && !IsWhitespace(s[0])
    ensures 0 < n <= |s| && IsWord(s[..n])
    ensures n < |s| ==> IsWhitespace(s[n])
  {
    if |s| == 1 || IsWhitespace(s[1]) then 1
    else
      var n := 1 + WordLength(s[1..]);
      assert forall i | 1 <= i < n :: s[..n][i] == s[1..][..n - 1][i - 1];
      n
  }

  /** `s.split()`: the maximal runs of non-whitespace characters, in order. */
  function Split(s: string): (words: seq<string>)
    ensures forall k | 0 <= k < |words| :: IsWord(words[k])
    decreases |s|
  {
    if s == [] then []
    else if IsWhitespace(s[0]) then Split(s[1..])
    else
      var n := WordLength(s);
      [s[..n]] + Split(s[n..])
  }

  /** `" ".join(words)`. */
  function Join(words: seq<string>): (s: string)
    ensures words == [] ==> s == ""
    ensures |words| == 1 ==> s == words[0]
  {
    if words == [] then ""
    else if |words| == 1 then words[0]
    else words[0] + " " + Join(words[1..])
  }

  /** The word at the front of `w + t` is `w` when `t` is empty or starts with whitespace. */
  lemma {:induction false} WordLengthOf(w: string, t: string)
    requires IsWord(w) && (t == [] || IsWhitespace(t[0]))
    ensures WordLength(w + t) == |w|
    decreases |w|
  {
    var s := w + t;
    if |w| == 1 {
      assert |s| == 1 || s[1] == t[0];
    } else {
      assert s[1] == w[1] && s[1..] == w[1..] + t;
      WordLengthOf(w[1..], t);
    }
  }

  /** Joining words with single spaces and splitting again gives the words back. */
  lemma {:induction false} SplitJoin(words: seq<string>)
    requires forall k | 0 <= k < |words| :: IsWord(words[k])
    ensures Split(Join(words)) == words
  {
    if words == [] {
    } else if |words| == 1 {
      var w := words[0];
      WordLengthOf(w, "");
      assert w + "" == w && w[..|w|] == w && w[|w|..] == "";
    } else {
      var w, rest := words[0], Join(words[1..]);
      var s := w + " " + rest;
      WordLengthOf(w, " " + rest);
      assert s == w + (" " + rest);
      assert s[..|w|] == w && s[|w|..] == " " + rest;
      assert (" " + rest)[1..] == rest;
      SplitJoin(words[1..]);
      assert words == [w] + words[1..];
    }
  }

  /** Every character of `s` is whitespace (the empty string included). */
  predicate IsBlank(s: string) {
    forall i | 0 <= i < |s| :: IsWhitespace(s[i])
  }

  /** The word at the front of `s` ends exactly where a whitespace character or the end of `s` comes. */
  lemma WordLengthUnique(s: string, n: nat)
    requires 0 < n <= |s| && IsWord(s[..n]) && (n == |s| || IsWhitespace(s[n]))
    ensures WordLength(s) == n
  {
    var m := WordLength(s);
    assert forall i | 0 <= i < n :: s[..n][i] == s[i];
    assert forall i | 0 <= i < m :: s[..m][i] == s[i];
  }

  /** Appending `t` leaves the front word of `s` alone when that word ends inside `s` or `t` starts a new run. */
  lemma WordLengthAppend(s: string, t: string)
    requires s != [] && !IsWhitespace(s[0])
    requires WordLength(s) < |s| || t == [] || IsWhitespace(t[0])
    ensures WordLength(s + t) == WordLength(s)
  {
    var n := WordLength(s);
    assert (s + t)[..n] == s[..n];
    assert n < |s| ==> (s + t)[n] == s[n];
    assert n == |s| && t != [] ==> (s + t)[n] == t[0];
    WordLengthUnique(s + t, n);
  }

  /** A string of whitespace only has no words. */
  lemma {:induction false} SplitBlank(s: string)
    requires IsBlank(s)
    ensures Split(s) == []
    decreases |s|
  {
    if s != [] {
      SplitBlank(s[1..]);
    }
  }

  /** A single word splits into itself. */
  lemma SplitWord(w: string)
    requires IsWord(w)
    ensures Split(w) == [w]
  {
    WordLengthOf(w, "");
    assert w + "" == w && w[..|w|] == w && w[|w|..] == "";
  }

  /** Cutting `s + t` inside or at the end of `s` cuts `s`. */
  lemma SliceAppend(s: string, t: string, n: nat)
    requires n <= |s|
    ensures (s + t)[..n] == s[..n] && (s + t)[n..] == s[n..] + t
  {
  }

  /** Splitting `s + t` when `s` starts with whitespace, given the split of the rest of `s` followed by `t`. */
  lemma SplitAppendBlankStep(s: string, t: string)
    requires s != [] && IsWhitespace(s[0])
    requires Split(s[1..] + t) == Split(s[1..]) + Split(t)
    ensures Split(s + t) == Split(s) + Split(t)
  {
    var st := s + t;
    SliceAppend(s, t, 1);
    assert st[0] == s[0];
  }

  /** Splitting `s + t` when `s` starts with a word that ends inside `s` or at the seam, given the split of what follows it. */
  lemma SplitAppendWordStep(s: string, t: string)
    requires s != [] && !IsWhitespace(s[0])
    requires WordLength(s) < |s| || t == [] || IsWhitespace(t[0])
    requires Split(s[WordLength(s)..] + t) == Split(s[WordLength(s)..]) + Split(t)
    ensures Split(s + t) == Split(s) + Split(t)
  {
    var n := WordLength(s);
    var st := s + t;
    assert Split(st) == [s[..n]] + Split(s[n..] + t) by {
      WordLengthAppend(s, t);
      assert st[0] == s[0];
      SliceAppend(s, t, n);
    }
    assert Split(s) == [s[..n]] + Split(s[n..]);
    ConcatAssociative([s[..n]], Split(s[n..]), Split(t));
  }

  /** Concatenation of word lists is associative. */
  lemma ConcatAssociative(a: seq<string>, b: seq<string>, c: seq<string>)
    ensures a + (b + c) == (a + b) + c
  {
  }

  /**
   * Splitting distributes over a concatenation that does not glue two words
   * together: one side is empty, or whitespace sits at the seam. With
   * SplitBlank and SplitWord this fixes Split on every string, since each
   * string is a sequence of words and whitespace runs.
   */
  lemma {:induction false} SplitAppend(s: string, t: string)
    requires s == [] || t == [] || IsWhitespace(s[|s| - 1]) || IsWhitespace(t[0])
    ensures Split(s + t) == Split(s) + Split(t)
    decreases |s|
  {
    if s == [] {
      assert s + t == t;
    } else {
      var n := if IsWhitespace(s[0]) then 1 else WordLength(s);
      var rest := s[n..];
      assert n < |s| || t == [] || IsWhitespace(s[|s| - 1]) || IsWhitespace(t[0]) by {
        assert n == |s| ==> s[..n][n - 1] == s[|s| - 1];
      }
      assert rest == [] || t == [] || IsWhitespace(rest[|rest| - 1]) || IsWhitespace(t[0]) by {
        assert rest != [] ==> rest[|rest| - 1] == s[|s| - 1];
      }
      SplitAppend(rest, t);
      if IsWhitespace(s[0]) {
        SplitAppendBlankStep(s, t);
      } else {
        SplitAppendWordStep(s, t);
      }
    }
  }

  /** `pattern` occurs in `s` starting at index `i`. */
  ghost predicate OccursAt(s: string, pattern: string, i: nat) {
    i + |pattern| <= |s| && s[i..i + |pattern|] == pattern
  }

  /** `pattern in s`: `pattern` occurs somewhere in `s` as a contiguous piece. */
  function Contains(s: string, pattern: string): (found: bool)
    ensures found <==> exists i: nat :: OccursAt(s, pattern, i)
    decreases |s|
  {
    if |s| < |pattern| then false
    else if s[..|pattern|] == pattern then
      assert OccursAt(s, pattern, 0);
      true
    else
      var found := Contains(s[1..], pattern);
      assert forall i: nat :: OccursAt(s[1..], pattern, i) <==> OccursAt(s, pattern, i + 1) by {
        forall i: nat
          ensures OccursAt(s[1..], pattern, i) <==> OccursAt(s, pattern, i + 1)
        {
          if i + 1 + |pattern| <= |s| {
            assert s[1..][i..i + |pattern|] == s[i + 1..i + 1 + |pattern|];
          }
        }
      }
      assert (exists i: nat :: OccursAt(s, pattern, i)) ==> exists i: nat :: OccursAt(s[1..], pattern, i) by {
        if exists i: nat :: OccursAt(s, pattern, i) {
          var i: nat :| OccursAt(s, pattern, i);
          assert i != 0;
          assert OccursAt(s[1..], pattern, i - 1);
        }
      }
      found
  }

  /** `w.startswith(prefix)`. */
  predicate StartsWith(w: string, prefix: string) {
    |prefix| <= |w| && w[..|prefix|] == prefix
  }
}

=== FILE: tourist.dfy ===
/**
 * The move validator of the travelling-tourist game of src/traveling_tourist.py:
 * a tour starts and ends in the home town and visits every listed city once.
 */
module Tourist {

  /** The fields of a `TravelingTourist`: the home town, the cities still to plan and the tour so far. */
  datatype TravelingTourist = TravelingTourist(homeTown: string, possibleMoves: seq<string>, currentGameState: seq<string>)

  /** `__init__`: a tour from Berlin over four cities, with nothing visited yet. */
  function NewTour(): (t: TravelingTourist)
    ensures t.homeTown == "Berlin" && t.homeTown in t.possibleMoves
    ensures t.possibleMoves == ["Berlin", "Copenhagen", "Paris", "Lisbon"]
    ensures t.currentGameState == []
  {
    TravelingTourist("Berlin", ["Berlin", "Copenhagen", "Paris", "Lisbon"], [])
  }

  /**
   * `_check_move_possible`: the home town only when it is the sole listed
   * move; any other city only when it is listed and not yet visited.
   */
  function CheckMovePossible(t: TravelingTourist, move: string): (allowed: bool)
    ensures move == t.homeTown ==> (allowed <==> t.possibleMoves == [t.homeTown])
    ensures move != t.homeTown ==>
              (allowed <==> move in t.possibleMoves && move !in t.currentGameState)
  {
    if move == t.homeTown then
      if |t.possibleMoves| == 1 && t.possibleMoves[0] == t.homeTown then true else false
    else if move in t.currentGameState then false
    else if move !in t.possibleMoves then false
    else true
  }

  /**
   * An allowed move never revisits a city other than the home town, and it
   * is always a listed move.
   */
  lemma AllowedMoveIsListedAndNew(t: TravelingTourist, move: string)
    requires CheckMovePossible(t, move)
    ensures move in t.possibleMoves
    ensures move != t.homeTown ==> move !in t.currentGameState
  {
  }

  /**
   * The home-town rule comes first: once the home town is the only listed
   * move it is allowed, however often it has been visited already.
   */
  lemma HomeRuleBeforeVisitedRule(t: TravelingTourist)
    requires t.possibleMoves == [t.homeTown] && t.homeTown in t.currentGameState
    ensures CheckMovePossible(t, t.homeTown)
  {
  }

  /** The cases of test/test_ttp.py on a tour that has visited Berlin and Copenhagen. */
  lemma CheckMovesExample()
    ensures var t := NewTour().(currentGameState := ["Berlin", "Copenhagen"]);
            && !CheckMovePossible(t, "Copenhagen")
            && !CheckMovePossible(t, "Berlin")
            && CheckMovePossible(t, "Paris")
  {
  }
}

=== FILE: training_data.dfy ===
/**
 * The sentence cleaner of src/sentence_classifier/build_training_data.py:
 * URL-like words are dropped, special characters are deleted or turned into
 * spaces, runs of spaces shrink to one and letters are lower-cased.
 */
module TrainingData {
  import opened Wrappers
  import opened Text
  import opened SentenceClassifier

  /** `special_chars_no_whitespace`: characters deleted outright. */
  const NoWhitespaceChars: set<char> :=
    {'`', '~', '$', '%', '^', '&', '*', '_', '-', '+', '=', '|', '\\', '"', '\'', '<', ',', '>', '/', '#'}

  /**
   * `special_chars_with_whitespace`: characters replaced by a space. The
   * closing brace is listed twice in the source and the closing bracket not
   * at all; the last two are the right double quotation mark and the en dash.
   */
  const WhitespaceChars: set<char> :=
    {',', '.', ';', ':', '?', '!', '{', '[', '}', '(', ')', '\U{201D}', '\U{2013}'}

  /** The error `make_features` raises unconditionally. */
  datatype TrainingDataError = NotImplemented

  /** A word that looks like a link: it starts with "http" or "www.". */
  predicate IsUrl(w: string) {
    StartsWith(w, "http") || StartsWith(w, "www.")
  }

  /** The filter of the first cleaning step: keeps, in order, the words that do not look like links. */
  function DropUrls(words: seq<string>): (kept: seq<string>)
    ensures |kept| <= |words|
    ensures forall k | 0 <= k < |kept| :: !IsUrl(kept[k]) && kept[k] in words
    ensures forall k | 0 <= k < |words| :: !IsUrl(words[k]) ==> words[k] in kept
  {
    if words == [] then []
    else (if IsUrl(words[0]) then [] else [words[0]]) + DropUrls(words[1..])
  }

  /** The filter works word by word: filtering a concatenation filters each part, keeping order and repeats. */
  lemma {:induction false} DropUrlsAppend(a: seq<string>, b: seq<string>)
    ensures DropUrls(a + b) == DropUrls(a) + DropUrls(b)
    decreases |a|
  {
    if a == [] {
      assert a + b == b;
    } else {
      assert (a + b)[0] == a[0] && (a + b)[1..] == a[1..] + b;
      DropUrlsAppend(a[1..], b);
    }
  }

  /** A single word is dropped exactly when it looks like a link, and kept as it is otherwise. */
  lemma DropUrlsOne(w: string)
    ensures DropUrls([w]) == if IsUrl(w) then [] else [w]
  {
    assert [w][1..] == [];
  }

  /**
   * Every character of `s` that is in `chars` replaced by `with`, the others
   * kept. With a single character this is Python's `str.replace` of that
   * character.
   */
  function Substitute(s: string, chars: set<char>, with: string): (r: string)
    ensures forall i | 0 <= i < |r| :: r[i] !in chars || r[i] in with
    ensures |with| == 1 ==> |r| == |s|
    ensures with == "" ==> |r| <= |s|
  {
    if s == [] then ""
    else (if s[0] in chars then with else [s[0]]) + Substitute(s[1..], chars, with)
  }

  /** A single character becomes `with` when it is listed and stays otherwise. */
  lemma SubstituteOne(c: char, chars: set<char>, with: string)
    ensures Substitute([c], chars, with) == if c in chars then with else [c]
  {
    assert [c][1..] == [];
  }

  /** Substitution distributes over concatenation. */
  lemma {:induction false} SubstituteAppend(a: string, b: string, chars: set<char>, with: string)
    ensures Substitute(a + b, chars, with) == Substitute(a, chars, with) + Substitute(b, chars, with)
    decreases |a|
  {
    if a == [] {
      assert a + b == b;
    } else {
      assert (a + b)[0] == a[0] && (a + b)[1..] == a[1..] + b;
      SubstituteAppend(a[1..], b, chars, with);
    }
  }

  /** Substituting characters that do not occur changes nothing. */
  lemma {:induction false} SubstituteAbsent(s: string, chars: set<char>, with: string)
    requires forall i | 0 <= i < |s| :: s[i] !in chars
    ensures Substitute(s, chars, with) == s
    decreases |s|
  {
    if s != [] {
      SubstituteAbsent(s[1..], chars, with);
    }
  }

  /**
   * One more pass of the cleaning loop: substituting `c` after the characters
   * of `done` is substituting all of them at once, whatever order the set
   * iteration picked.
   */
  lemma {:induction false} SubstituteOneMore(s: string, done: set<char>, c: char, with: string)
    requires c !in with
    ensures Substitute(Substitute(s, done, with), {c}, with) == Substitute(s, done + {c}, with)
    decreases |s|
  {
    if s != [] {
      var head := if s[0] in done then with else [s[0]];
      SubstituteAppend(head, Substitute(s[1..], done, with), {c}, with);
      if s[0] in done {
        SubstituteAbsent(with, {c}, with);
      }
      SubstituteOneMore(s[1..], done, c, with);
    }
  }

  /** No two spaces stand next to each other. */
  predicate NoDoubleSpace(s: string) {
    forall i | 0 <= i < |s| - 1 :: !(s[i] == ' ' && s[i + 1] == ' ')
  }

  /** The text with its spaces taken out. */
  function NonSpaces(s: string): (r: string)
    ensures forall i | 0 <= i < |r| :: r[i] != ' '
  {
    if s == [] then ""
    else (if s[0] == ' ' then "" else [s[0]]) + NonSpaces(s[1..])
  }

  /**
   * `re.sub(' +', ' ', s)`: every run of spaces becomes a single space. Only
   * spaces are removed, the first character stays, and text without a double
   * space is left as it is.
   */
  function Collapse(s: string): (r: string)
    ensures NoDoubleSpace(r)
    ensures |r| <= |s|
    ensures s != [] ==> r != [] && r[0] == s[0]
    ensures NonSpaces(r) == NonSpaces(s)
    ensures NoDoubleSpace(s) ==> r == s
  {
    if |s| < 2 then s
    else if s[0] == ' ' && s[1] == ' ' then
      Collapse(s[1..])
    else
      var rest := Collapse(s[1..]);
      assert NoDoubleSpace(s) ==> NoDoubleSpace(s[1..]) by {
        if NoDoubleSpace(s) {
          forall i | 0 <= i < |s[1..]| - 1
            ensures !(s[1..][i] == ' ' && s[1..][i + 1] == ' ')
          {
            assert s[1..][i] == s[i + 1] && s[1..][i + 1] == s[i + 2];
          }
        }
      }
      var r := [s[0]] + rest;
      assert r[1..] == rest;
      assert forall i | 1 <= i < |r| :: r[i] == rest[i - 1];
      assert NoDoubleSpace(s) ==> r == [s[0]] + s[1..] == s;
      r
  }

  /**
   * Two spaces in a row collapse like one: with NoDoubleSpace(s) ==> Collapse(s) == s
   * this fixes Collapse, since each run of spaces shrinks step by step to a single space.
   */
  lemma {:induction false} CollapseDouble(a: string, b: string)
    ensures Collapse(a + "  " + b) == Collapse(a + " " + b)
    decreases |a|
  {
    var s, t := a + "  " + b, a + " " + b;
    if a == [] {
      assert s[0] == ' ' && s[1] == ' ' && s[1..] == t;
    } else {
      assert s[0] == t[0] == a[0];
      assert s[1] == t[1];
      assert s[1..] == a[1..] + "  " + b && t[1..] == a[1..] + " " + b;
      CollapseDouble(a[1..], b);
    }
  }

  /** An ASCII capital letter. */
  predicate IsUpper(c: char) {
    'A' <= c <= 'Z'
  }

  /** `str.lower` on one character, over ASCII letters. */
  function LowerChar(c: char): (d: char)
    ensures !IsUpper(d)
    ensures IsUpper(c) ==> 'a' <= d <= 'z' && d as int - c as int == 32
    ensures !IsUpper(c) ==> d == c
  {
    if IsUpper(c) then (c as int + 32) as char else c
  }

  /** `s.lower()`: the same text with every capital ASCII letter made small. */
  function Lower(s: string): (r: string)
    ensures |r| == |s|
    ensures forall i | 0 <= i < |r| :: !IsUpper(r[i])
    ensures forall i | 0 <= i < |r| :: r[i] == s[i] || 'a' <= r[i] <= 'z'
    ensures forall i | 0 <= i < |r| :: r[i] == ' ' <==> s[i] == ' '
    ensures forall i | 0 <= i < |r| :: r[i] == LowerChar(s[i])
  {
    seq(|s|, i requires 0 <= i < |s| => LowerChar(s[i]))
  }

  /** The character clean-up of `clean_sentence`: deletion, spacing, collapsing and lower-casing. */
  function CharacterCleanup(joined: string): string {
    var deleted := Substitute(joined, NoWhitespaceChars, "");
    var spaced := Substitute(deleted, WhitespaceChars, " ");
    Lower(Collapse(spaced))
  }

  /** The whole of `clean_sentence`: the word filter, then the character clean-up. */
  function Cleaned(sentence: string): string {
    CharacterCleanup(Join(DropUrls(Split(sentence))))
  }

  /**
   * One loop of `clean_sentence`: `s.replace(c, with)` for each character of
   * `chars`, in an unspecified order modelled as an arbitrary choice of the
   * next character; the result does not depend on that order.
   */
  method ReplaceEach(s0: string, chars: set<char>, with: string) returns (s: string)
    requires forall c | c in chars :: c !in with
    ensures s == Substitute(s0, chars, with)
  {
    s := s0;
    var todo := chars;
    ghost var done: set<char> := {};
    SubstituteAbsent(s0, done, with);
    while todo != {}
      invariant todo <= chars && done == chars - todo
      invariant s == Substitute(s0, done, with)
      decreases |todo|
    {
      var c :| c in todo;
      SubstituteOneMore(s0, done, c, with);
      s := Substitute(s, {c}, with);
      todo, done := todo - {c}, done + {c};
    }
    assert done == chars;
  }

  /** `clean_sentence`. */
  method CleanSentence(sentence: string) returns (cleaned: string)
    ensures cleaned == Cleaned(sentence)
    ensures Avoids(cleaned, NoWhitespaceChars + WhitespaceChars)
    ensures NoDoubleSpace(cleaned)
    ensures forall i | 0 <= i < |cleaned| :: !IsUpper(cleaned[i])
  {
    var s := Join(DropUrls(Split(sentence)));
    ghost var joined := s;
    s := ReplaceEach(s, NoWhitespaceChars, "");
    s := ReplaceEach(s, WhitespaceChars, " ");
    cleaned := Lower(Collapse(s));
    CleanedProperties(joined);
  }

  /** No character of `s` is in `bad`. */
  predicate Avoids(s: string, bad: set<char>) {
    forall i | 0 <= i < |s| :: s[i] !in bad
  }

  /** Substitution leaves no bad character when the replacement has none and every bad character is substituted. */
  lemma {:induction false} SubstituteAvoids(s: string, chars: set<char>, with: string, bad: set<char>)
    requires forall i | 0 <= i < |s| :: s[i] in chars || s[i] !in bad
    requires Avoids(with, bad)
    ensures Avoids(Substitute(s, chars, with), bad)
    decreases |s|
  {
    if s != [] {
      SubstituteAvoids(s[1..], chars, with, bad);
      var head := if s[0] in chars then with else [s[0]];
      var r := Substitute(s, chars, with);
      assert r == head + Substitute(s[1..], chars, with);
      forall i | 0 <= i < |r|
        ensures r[i] !in bad
      {
        if i >= |head| {
          assert r[i] == Substitute(s[1..], chars, with)[i - |head|];
        }
      }
    }
  }

  /** Collapsing spaces brings in no new character. */
  lemma {:induction false} CollapseAvoids(s: string, bad: set<char>)
    requires Avoids(s, bad)
    ensures Avoids(Collapse(s), bad)
    decreases |s|
  {
    if |s| >= 2 {
      CollapseAvoids(s[1..], bad);
      var r := Collapse(s);
      if !(s[0] == ' ' && s[1] == ' ') {
        assert r == [s[0]] + Collapse(s[1..]);
        forall i | 0 <= i < |r|
          ensures r[i] !in bad
        {
          if i > 0 {
            assert r[i] == Collapse(s[1..])[i - 1];
          }
        }
      }
    }
  }

  /** Lower-casing brings in nothing but small letters. */
  lemma LowerAvoids(s: string, bad: set<char>)
    requires Avoids(s, bad) && forall c | c in bad :: !('a' <= c <= 'z')
    ensures Avoids(Lower(s), bad)
  {
  }

  /**
   * What a cleaned sentence looks like: no special character of either set,
   * never two spaces in a row, and no capital letter.
   */
  lemma CleanedProperties(joined: string)
    ensures var r := CharacterCleanup(joined);
            && Avoids(r, NoWhitespaceChars + WhitespaceChars)
            && NoDoubleSpace(r)
            && (forall i | 0 <= i < |r| :: !IsUpper(r[i]))
  {
    var special := NoWhitespaceChars + WhitespaceChars;
    var deleted := Substitute(joined, NoWhitespaceChars, "");
    SubstituteAvoids(joined, NoWhitespaceChars, "", NoWhitespaceChars);
    var spaced := Substitute(deleted, WhitespaceChars, " ");
    SubstituteAvoids(deleted, WhitespaceChars, " ", special);
    var collapsed := Collapse(spaced);
    CollapseAvoids(spaced, special);
    var r := Lower(collapsed);
    LowerAvoids(collapsed, special);
    forall i | 0 <= i < |r| - 1
      ensures !(r[i] == ' ' && r[i + 1] == ' ')
    {
      assert !(collapsed[i] == ' ' && collapsed[i + 1] == ' ');
    }
  }

  /**
   * The comma is in both sets and deletion runs first, so a comma vanishes
   * instead of becoming a space.
   */
  lemma CommaDeleted(a: string, b: string)
    ensures Substitute(Substitute(a + "," + b, NoWhitespaceChars, ""), WhitespaceChars, " ")
         == Substitute(Substitute(a + b, NoWhitespaceChars, ""), WhitespaceChars, " ")
  {
    SubstituteAppend(a + ",", b, NoWhitespaceChars, "");
    SubstituteAppend(a, ",", NoWhitespaceChars, "");
    SubstituteAppend(a, b, NoWhitespaceChars, "");
    assert Substitute(",", NoWhitespaceChars, "") == "";
    assert Substitute(a, NoWhitespaceChars, "") + "" == Substitute(a, NoWhitespaceChars, "");
  }

  /**
   * The text handed to the character clean-up consists of exactly the
   * sentence's words that do not look like links, in order.
   */
  lemma UrlWordsDropped(sentence: string)
    ensures var words := Split(Join(DropUrls(Split(sentence))));
            && words == DropUrls(Split(sentence))
            && forall k | 0 <= k < |words| :: !IsUrl(words[k])
  {
    var kept := DropUrls(Split(sentence));
    assert forall k | 0 <= k < |kept| :: kept[k] in Split(sentence);
    SplitJoin(kept);
  }

  /**
   * `make_features` of the training-data builder: it cleans and frames the
   * sentence, then raises `NotImplementedError` whatever the input.
   */
  method MakeFeatures(sentence: string) returns (r: Result<Features, TrainingDataError>)
    ensures r == Failure(NotImplemented)
  {
    var cleaned := CleanSentence(sentence);
    var tokens := Tokens(Split(cleaned));
    // The n-grams are built and then dropped: the source raises before using them.
    var _ := Features(Bigrams(tokens), Trigrams(tokens));
    return Failure(NotImplemented);
  }
}

=== FILE: tree.dfy ===
/**
 * The auto-vivifying search tree of src/tree.py.
 *
 * In the source every node is a dict subclass whose missing keys create an
 * empty child node on first lookup. Here the whole tree is one object holding
 * a map from the move path (from the top-level tree) to the node's statistics.
 * The top-level tree object itself is the node at the empty path.
 */
module Tree {
  import opened Wrappers

  type Path = seq<string>

  /** The statistics a `SearchTree` node carries: `passes`, `average_path_value` and `full_path`. */
  datatype Node = Node(passes: nat, average: Option<int>, fullPath: seq<string>)

  type Nodes = map<Path, Node>

  /** The state of a node created by `SearchTree.__init__`. */
  const FreshNode: Node := Node(0, None, [])

  /** A child can only exist below an existing parent, as in nested dicts: every prefix of a key is a key. */
  ghost predicate PrefixClosed(m: Nodes) {
    forall p, k | p in m && 0 <= k <= |p| :: p[..k] in m
  }

  /** `q` is one of the non-empty prefixes of `path`: a node that walking `path` visits. */
  ghost predicate OnPath(q: Path, path: Path) {
    0 < |q| <= |path| && q == path[..|q|]
  }

  /** The node stored at `q`, or a fresh node if there is none yet. */
  function Base(m: Nodes, q: Path): Node {
    if q in m then m[q] else FreshNode
  }

  /** `r` holds every node of `m` unchanged, and every node it adds is fresh. */
  ghost predicate Extends(m: Nodes, r: Nodes) {
    && m.Keys <= r.Keys
    && (forall q | q in m :: r[q] == m[q])
    && (forall q | q in r && q !in m :: r[q] == FreshNode)
  }

  /** The effect of `__missing__`: looking up `p` binds it to a fresh node when it is absent. */
  function Vivify(m: Nodes, p: Path): Nodes {
    if p in m then m else m[p := FreshNode]
  }

  /** The tree after looking up every step of `path` from the top-level tree. */
  function Materialize(m: Nodes, path: Path): (r: Nodes)
    ensures forall q {:trigger q in r} :: q in r <==> q in m || OnPath(q, path)
    ensures Extends(m, r)
    ensures [] in m ==> path in r
    decreases |path|
  {
    if path == [] then m
    else
      var parent := path[..|path| - 1];
      OnPathStep(path);
      Vivify(Materialize(m, parent), path)
  }

  /** The moves under which node `p` has children. */
  function Children(m: Nodes, p: Path): (moves: set<string>)
    ensures forall k {:trigger k in moves} :: k in moves <==> p + [k] in m
  {
    var moves := set q | q in m && |q| == |p| + 1 && q[..|p|] == p :: q[|p|];
    assert forall k :: p + [k] in m ==> (p + [k])[..|p|] == p && (p + [k])[|p|] == k;
    assert forall q | q in m && |q| == |p| + 1 && q[..|p|] == p :: q == p + [q[|p|]];
    moves
  }

  /** Walking one step further adds exactly the new path to the visited prefixes. */
  lemma OnPathStep(path: Path)
    requires path != []
    ensures forall q :: OnPath(q, path) <==> OnPath(q, path[..|path| - 1]) || q == path
  {
    var parent := path[..|path| - 1];
    forall q
      ensures OnPath(q, path) <==> OnPath(q, parent) || q == path
    {
      if OnPath(q, parent) {
        assert parent[..|q|] == path[..|q|];
      }
      if OnPath(q, path) && q != path {
        assert |q| < |path|;
        assert parent[..|q|] == path[..|q|];
      }
    }
  }

  /** When every node on `path` exists and so does its child under `key`, every node on the longer path exists. */
  lemma PathsExtend(m: Nodes, path: Path, key: string)
    requires forall q | OnPath(q, path) :: q in m
    requires path + [key] in m
    ensures forall q | OnPath(q, path + [key]) :: q in m
  {
    var longer := path + [key];
    assert longer[..|longer| - 1] == path;
    OnPathStep(longer);
  }

  /** Adding a node below an existing parent keeps the tree prefix-closed. */
  lemma VivifyClosed(m: Nodes, p: Path)
    requires PrefixClosed(m) && p != [] && p[..|p| - 1] in m
    ensures PrefixClosed(Vivify(m, p))
  {
    var r := Vivify(m, p);
    forall q, k | q in r && 0 <= k <= |q|
      ensures q[..k] in r
    {
      if q == p && k < |p| {
        assert p[..|p| - 1][..k] == p[..k];
      } else if q == p {
        assert p[..k] == p;
      }
    }
  }

  /**
   * A lookup keeps every existing node and only adds; the node it creates is
   * fresh and, in a prefix-closed tree, has no children yet.
   */
  lemma VivifyFresh(m: Nodes, p: Path)
    requires PrefixClosed(m) && p !in m
    ensures Extends(m, Vivify(m, p)) && Vivify(m, p)[p] == FreshNode
    ensures Children(Vivify(m, p), p) == {}
  {
    forall k
      ensures p + [k] !in m
    {
      assert (p + [k])[..|p|] == p;
    }
  }

  /** Walking a path from the top-level tree keeps the tree prefix-closed. */
  lemma {:induction false} MaterializeClosed(m: Nodes, path: Path)
    requires PrefixClosed(m) && [] in m
    ensures PrefixClosed(Materialize(m, path))
    decreases |path|
  {
    if path != [] {
      var parent := path[..|path| - 1];
      MaterializeClosed(m, parent);
      VivifyClosed(Materialize(m, parent), path);
    }
  }

  /** Walking a path whose nodes all exist changes nothing. */
  lemma {:induction false} MaterializeExisting(m: Nodes, path: Path)
    requires forall q | OnPath(q, path) :: q in m
    ensures Materialize(m, path) == m
    decreases |path|
  {
    if path != [] {
      var parent := path[..|path| - 1];
      OnPathStep(path);
      MaterializeExisting(m, parent);
      assert OnPath(path, path);
    }
  }

  /** The search tree: the top-level `SearchTree` object and all nodes below it. */
  class SearchTree {
    var nodes: Nodes

    /** The top-level tree is always there. */
    ghost predicate Valid()
      reads this
    {
      [] in nodes
    }

    /** A new tree is a single fresh node. */
    constructor ()
      ensures Valid() && nodes == map[[] := FreshNode]
    {
      nodes := map[[] := FreshNode];
    }

    /** `node[key]` on the node at `parent`: returns the child, creating it first when missing. */
    method Get(parent: Path, key: string) returns (child: Node)
      requires Valid() && parent in nodes
      modifies this
      ensures Valid()
      ensures parent + [key] in old(nodes) ==> nodes == old(nodes) && child == nodes[parent + [key]]
      ensures parent + [key] !in old(nodes) ==> nodes == old(nodes)[parent + [key] := FreshNode] && child == FreshNode
      ensures nodes == Vivify(old(nodes), parent + [key])
    {
      var p := parent + [key];
      if p !in nodes {
        nodes := nodes[p := FreshNode];
      }
      child := nodes[p];
    }

    /** Looks up every move of `path` in turn from the top-level tree and returns the last node. */
    method Walk(path: Path) returns (leaf: Node)
      requires Valid()
      modifies this
      ensures Valid()
      ensures nodes == Materialize(old(nodes), path)
      ensures Extends(old(nodes), nodes) && path in nodes && leaf == nodes[path]
    {
      ghost var m0 := nodes;
      leaf := nodes[[]];
      for i := 0 to |path|
        invariant Valid()
        invariant nodes == Materialize(m0, path[..i])
        invariant path[..i] in nodes && leaf == nodes[path[..i]]
      {
        ghost var step := path[..i + 1];
        assert step[..|step| - 1] == path[..i] && path[..i] + [path[i]] == step;
        assert Materialize(m0, step) == Vivify(Materialize(m0, path[..i]), step);
        leaf := Get(path[..i], path[i]);
      }
      assert path[..|path|] == path;
    }
  }
}

=== FILE: wrappers.dfy ===
/** Failure-carrying result types used for the exceptions the source raises. */
module Wrappers {

  datatype Option<+T> = None | Some(value: T)

  /** A computation that either yields a value or raises an error. */
  datatype Result<+T, +E> = Success(value: T) | Failure(error: E)

  /** A computation with no value that either completes or raises an error. */
  datatype Outcome<+E> = Pass | Fail(error: E)
}
